=== FILE: README.md ===
# SubStack keeper, modelled in Dafny

This project models the off-chain **keeper** of the SubStack recurring-payments protocol on Stacks. The keeper wakes on a timer and scans the on-chain subscription plans. It picks the charges that are due and whose 0.2% keeper fee reaches a profit threshold. It caps them at a batch size and submits them one at a time. A single-flight flag keeps cycles from overlapping. Around it sit:

- the chain client the keeper uses. Its reads decode the contracts' JSON values and let every failure propagate.
- a second, fail-closed contract layer. Every contract read maps a failure to a fixed default; its block-height fetch has no fallback and throws. It adds a batch submitter.
- the configuration helpers: environment fallbacks, contract-id split, network selection.
- the front end's block/period conversions.

The chain is an oracle (`Chain.ChainView`). It is a record of total functions that answer each read-only query with a decoded value or a `Fault`. The broadcast endpoint (`Chain.Broadcaster`) answers each signed contract call with a transaction id, a rejection or a build failure. Clocks, timers, consoles and the process are parameters or results:

- the timer period is returned;
- the exit code is returned;
- the running flag goes in and comes out.

Files, one module each:

| file | module | models |
|---|---|---|
| outcomes.dfy | `Outcomes` | `Option` / `Result` for `null` and thrown errors |
| sequences.dfy | `Sequences` | the subsequence relation shared by the scanner and the profit filter |
| decimal.dfy | `Decimal` | integer ↔ decimal text (template rendering, `parseInt` of digit strings) |
| config.dfy | `Config` | backend/src/config.ts |
| chain.dfy | `Chain` | the chain oracle and contract calls shared by both clients |
| stacks_client.dfy | `StacksClient` | backend/src/stacks-client.ts, including the due-charge scanner |
| contracts.dfy | `Contracts` | backend/src/contracts.ts |
| keeper.dfy | `Keeper` | backend/src/keeper.ts |
| block_periods.dfy | `BlockPeriods` | src/lib/stacks-config.ts |

The scanner returns a `Scan`: the candidates found, every query issued (in order), and whether a failed query aborted it. This lets the model state which queries are made as well as what they return. Two predicates and two reference lists describe the chain independently of the scan:

- `Eligible`: the charge is in range, its plan is retained, the subscriber is listed, the charge is due as the boolean `true`, and the subscription is present and active, with the candidate carrying the subscription's recorded amount.
- `ScanHealthy`: every query the scan needs is answered.
- `DueList`: the due charges as a list, plans ascending and each retained plan's qualifying subscribers in list order; `DueListEligible` shows it holds exactly the eligible charges.
- `PlansQueries`: the queries the scan must make, as a list. Each plan is queried in ascending order; a retained plan then gets its subscriber list queried, and each listed subscriber its due check, then its subscription fetch when due. `PlansQueriesJustified` shows it holds exactly the `Justified` queries, those the scan has a reason to make.

The scan is proved against all four. An unaborted scan finds exactly `DueList` and issues exactly `PlansQueries`.

The keeper imports `stacks-client.ts`, and that file has no `try`/`catch`. So one failed query, for example a due-ness check for one subscriber, aborts the whole scan. The cycle then ends in the keeper's top-level `catch` and submits nothing. It does not skip just that subscriber with a `false` default. `StacksClient.DueCheckFaultAbortsScan` states this. The fail-closed defaults exist only in `contracts.ts`, which the keeper does not use.

`contracts.ts` imports `CONTRACTS`, `network`, `API_URL` and `KEEPER_PRIVATE_KEY` from `./config`. `config.ts` exports only `parseContractId` of these (beside `config`, `getApiUrl` and `getNetwork`). The `Contracts` module models `contracts.ts` as if `config.ts` exported the other four as well. Contract addressing and the network object are not modelled (see below), and the operator key is a parameter of the submitters. As written, each contract read evaluates `CONTRACTS.<contract>` outside its `try`, so it throws a `TypeError` instead of falling back. `!KEEPER_PRIVATE_KEY` is always true, so both submitters always throw. `getCurrentBlockHeight` fetches a URL that starts with `undefined`.

## Model

| member | source | states |
|---|---|---|
| `Decimal.NatRoundTrip` | backend/src/config.ts:24-27 | reading the decimal rendering of a natural number back with the digit parser gives the number |
| `Decimal.IntRoundTrip` | src/lib/stacks-config.ts:28 | reading the rendering of any integer (minus sign for negatives) back gives the integer |
| `Config.OptionalEnv` | backend/src/config.ts:6-8 | an unset or empty variable yields the default, any other value is returned verbatim; the result is empty only if the default is |
| `Config.OptionalEnvIdempotent` | backend/src/config.ts:6-8 | writing back the value read and reading again yields the same value |
| `Config.SplitOnDots` | backend/src/config.ts:50 | `split('.')` yields at least one segment, every segment dot-free, re-joining with dots gives the input, a single segment exactly when there is no dot |
| `Config.SplitJoinRoundTrip` | backend/src/config.ts:50 | splitting a dot-joined list of dot-free segments gives back exactly those segments |
| `Config.ParseContractId` | backend/src/config.ts:49-52 | address and name are dot-free; the name is absent exactly when the id has no dot, and then the address is the whole id; otherwise the id begins with `address.` |
| `Config.ParseContractIdOfPair` | backend/src/config.ts:49-52 | `a.n` with dot-free `a`, `n` parses to address `a` and name `n` |
| `Config.ParseContractIdDropsExtra` | backend/src/config.ts:50-51 | segments after the second are dropped: `a.n.x` still parses to `(a, n)` |
| `Config.GetApiUrl` | backend/src/config.ts:33-39 | total: every selector maps to one of the mainnet, devnet or testnet URLs |
| `Config.GetNetwork` | backend/src/config.ts:41-47 | mainnet only for `"mainnet"`, devnet only for `"devnet"` |
| `Config.ApiUrlAgreesWithNetwork` | backend/src/config.ts:33-47 | for every selector the API URL addresses the same network the network selector picks; testnet exactly for every selector other than mainnet and devnet |
| `Config.NumericEnv` | backend/src/config.ts:24-27 | an unset or empty numeric variable gives the default; a set one gives the number its digits denote |
| `Config.LoadSettings` | backend/src/config.ts:13-31 | each field is its variable's value when that variable is set and non-empty, and its default otherwise: network `testnet`, contract ids `<default address>.<contract name>`, key `''`, log level `info`; a set numeric variable gives the number its digits denote, an unset one 10 / 10 / 1000 / 100; the key is empty exactly when `KEEPER_PRIVATE_KEY` is unset or empty; network and log level are never empty |
| `Config.LoadSettingsRoundTrip` | backend/src/config.ts:13-31 | an environment that spells out a settings record (each variable set to its field, numbers in decimal) loads back exactly that record |
| `Config.DefaultSettings` | backend/src/config.ts:11-30 | with nothing set: network `testnet`, the three default contract ids, key `''`, interval 10, batch size 10, min profit 1000, max plans 100, log level `info` |
| `Config.DefaultContractIdsSplit` | backend/src/config.ts:11-19 | whenever a contract variable is unset or empty, its id splits into the default deployer address and `subscription-vault` / `subscription-plans` / `subscription-engine` |
| `StacksClient.BlockHeightOf` | backend/src/stacks-client.ts:37 | height is 0 exactly when the result list is empty or the first height is missing or 0; otherwise it is that height |
| `StacksClient.DecodePlan` | backend/src/stacks-client.ts:47-56 | `none` decodes to absent; a present plan carries the queried id and exactly the fields read |
| `StacksClient.DecodeSubscribers` | backend/src/stacks-client.ts:61-62 | a non-list value decodes to the empty list; a list decodes to its principals in order |
| `StacksClient.DecodeDue` | backend/src/stacks-client.ts:67 | due exactly when the decoded value is the boolean `true` |
| `StacksClient.DecodeSubscription` | backend/src/stacks-client.ts:72-80 | `none` decodes to absent; a present subscription carries the queried pair and exactly the fields read |
| `StacksClient.Read` | backend/src/stacks-client.ts:20-31 | a read throws exactly when the call faults, naming the query; otherwise it returns the decoded answer |
| `StacksClient.GetCurrentBlockHeight` | backend/src/stacks-client.ts:33-38 | throws exactly when the block endpoint faults; otherwise returns the first result's height, 0 when the list is empty or that height is missing |
| `StacksClient.GetTotalPlans` | backend/src/stacks-client.ts:40-43 | throws exactly when the call faults; otherwise the count the chain reports |
| `StacksClient.GetPlan` | backend/src/stacks-client.ts:45-57 | throws exactly when the call faults, naming the plan query; otherwise the decoded plan |
| `StacksClient.GetPlanSubscribers` | backend/src/stacks-client.ts:59-63 | throws exactly when the call faults; otherwise the decoded subscriber list |
| `StacksClient.IsChargeDue` | backend/src/stacks-client.ts:65-68 | throws exactly when the call faults; otherwise true exactly when the chain answers the boolean `true` |
| `StacksClient.GetSubscription` | backend/src/stacks-client.ts:70-81 | throws exactly when the call faults; otherwise the decoded subscription |
| `StacksClient.GetVaultBalance` | backend/src/stacks-client.ts:83-86 | throws exactly when the call faults; otherwise the balance the chain reports |
| `StacksClient.ExecuteCharge` | backend/src/stacks-client.ts:88-105 | returns a txid exactly when the `execute-charge` call (fee 10000) is accepted; a broadcast error payload is thrown as `Broadcast failed` with that payload |
| `StacksClient.ScanSubscriber` | backend/src/stacks-client.ts:116-123 | one subscriber: at most one candidate, exactly the qualifying one; aborts exactly when a needed query faults, at the end; asks for the subscription only when the charge is due |
| `StacksClient.ScanSubscribersFaults` | backend/src/stacks-client.ts:116-124 | a roster scan aborts exactly when some needed query faults, and every query but that last one was answered |
| `StacksClient.ScanSubscribersFound` | backend/src/stacks-client.ts:116-124 | a roster scan reports only due, active, listed subscriptions at their recorded amount, in subscriber-list order; unaborted, it reports all of them |
| `StacksClient.ScanSubscribersQueries` | backend/src/stacks-client.ts:116-124 | a roster scan asks due-ness only of listed subscribers, and fetches a subscription only for those reported due; unaborted, it makes exactly the due check of every listing and the subscription fetch of every due one, in list order |
| `StacksClient.RosterQueriesMembers` | backend/src/stacks-client.ts:116-119 | the required roster queries are exactly the due checks of listed subscribers and the subscription fetches of due ones |
| `StacksClient.ScanPlanFacts` | backend/src/stacks-client.ts:112-124 | one plan: an absent, inactive or subscriber-less plan issues only the plan query and yields nothing; otherwise its candidates are exactly its eligible charges, in list order, at most one per listed subscriber; unaborted, it issues exactly the plan query, then for a retained plan the subscriber-list query and the roster's required queries |
| `StacksClient.ScanPlansFaults` | backend/src/stacks-client.ts:111-125 | a scan of plans `lo..hi` aborts exactly when a query it needs faults, and then at that query |
| `StacksClient.ScanPlansFound` | backend/src/stacks-client.ts:111-125 | candidates are eligible charges of plans in range; unaborted, every eligible charge is found; their number is at most the total length of the retained plans' subscriber lists |
| `StacksClient.ScanPlansOrdered` | backend/src/stacks-client.ts:111-125 | candidates come in ascending plan-id order |
| `StacksClient.ScanPlansQueries` | backend/src/stacks-client.ts:111-119 | plan ids queried are a prefix of `lo..hi` ascending, all of it when not aborted; every query has a reason (retained plan, listed subscriber, due charge); unaborted, the queries are exactly the required ones, plan by plan |
| `StacksClient.PlansQueriesJustified` | backend/src/stacks-client.ts:111-119 | the required queries of plans `lo..hi` are exactly the queries with a reason |
| `StacksClient.ScanAllQueries` | backend/src/stacks-client.ts:109-119 | the plan count is queried first; unaborted, the count query is followed by exactly the required queries of plans `1..min(totalPlans, maxPlans)`; plan ids queried are `1..min(totalPlans, maxPlans)` ascending, none when that bound is below 1; only the last query of an aborted scan faulted |
| `StacksClient.DueListEligible` | backend/src/stacks-client.ts:107-127 | the reference list of due charges (plans ascending, each retained plan's qualifying subscribers in list order) holds exactly the eligible charges |
| `StacksClient.ScanSubscribersExact` | backend/src/stacks-client.ts:116-124 | an unaborted roster scan finds exactly the roster's qualifying charges, one per listing, in list order |
| `StacksClient.ScanPlanExact` | backend/src/stacks-client.ts:112-124 | an unaborted plan scan finds exactly the plan's part of the reference list: nothing for a plan that is not retained |
| `StacksClient.ScanPlansExact` | backend/src/stacks-client.ts:111-125 | an unaborted scan of plans `lo..hi` finds exactly the reference list, order and repetitions included |
| `StacksClient.ScanAllFound` | backend/src/stacks-client.ts:107-127 | the whole scan aborts exactly when a needed query faults; otherwise it is exactly the reference list up to `min(totalPlans, maxPlans)`, so exactly the eligible charges, in plan-id order, bounded by the subscriber-list total |
| `StacksClient.FindDueCharges` | backend/src/stacks-client.ts:107-127 | succeeds exactly when every needed query is answered, and then returns the reference list: exactly the eligible charges, plans ascending and each plan's in subscriber-list order; otherwise throws the error of an unanswered query and no partial list |
| `StacksClient.DueCheckFaultAbortsScan` | backend/src/stacks-client.ts:117 | one faulted due-ness check on a listed subscriber of a retained plan in range makes the whole scan throw |
| `StacksClient.RepricingKeepsCharges` | backend/src/stacks-client.ts:121 | changing plans' live amounts changes neither the queries nor the result: candidates carry the subscription's recorded amount |
| `Contracts.FailClosed` | backend/src/contracts.ts:33-36 | a failed call yields the fixed default; an answered one the decoded value |
| `Contracts.GetCurrentBlockHeight` | backend/src/contracts.ts:15-19 | no fallback: throws exactly when the fetch fails; otherwise the first result's height, 0 for an empty result list or a missing height |
| `Contracts.GetTotalPlans` | backend/src/contracts.ts:21-37 | 0 when the call fails, the reported count otherwise |
| `Contracts.GetPlan` | backend/src/contracts.ts:39-63 | absent when the call fails, the reported plan (or absent) otherwise |
| `Contracts.GetPlanSubscribers` | backend/src/contracts.ts:65-82 | the empty list when the call fails or the value is not a list; a list value gives its principals in order |
| `Contracts.IsChargeDue` | backend/src/contracts.ts:84-99 | true exactly when the chain answers the boolean `true`; a failure reads as not due |
| `Contracts.GetSubscription` | backend/src/contracts.ts:101-123 | absent when the call fails, the reported subscription (or absent) otherwise |
| `Contracts.GetBalance` | backend/src/contracts.ts:125-140 | 0 when the call fails, the reported balance otherwise |
| `Contracts.FailClosedIsDefaultedClient` | backend/src/contracts.ts:21-140 | each fail-closed read equals the propagating client's read with its thrown error replaced by 0 / [] / false / absent; a present subscription keeps the decoded amount, interval and active flag |
| `Contracts.ExecuteCharge` | backend/src/contracts.ts:142-162 | an empty key throws before any call is built; otherwise the `execute-charge` call is built and the result is the txid exactly when it is accepted, `null` otherwise |
| `Contracts.BatchCall` | backend/src/contracts.ts:171-176 | one list argument with one `{subscriber, plan-id}` tuple per charge, pairing and order kept |
| `Contracts.BatchCallRoundTrip` | backend/src/contracts.ts:171-176 | reading the charges back out of a batch call gives exactly the batch |
| `Contracts.ExecuteBatchCharges` | backend/src/contracts.ts:164-193 | an empty key throws even for an empty batch; with a key an empty batch returns `null` and builds nothing; otherwise one call, signed with the key and with no fixed fee, carries exactly the first `min(10, n)` charges in order, and its txid is returned exactly when accepted |
| `Keeper.KeeperFee` | backend/src/keeper.ts:17-19 | the fee is the floor of 0.2% of the amount: `10000·fee ≤ 20·amount < 10000·(fee+1)` |
| `Keeper.FeeBounds` | backend/src/keeper.ts:17-19 | for amounts ≥ 0 the fee lies in `0..amount`; the fee never decreases as the amount grows |
| `Keeper.LevelIndex` | backend/src/keeper.ts:10-11 | the position in `debug, info, warn, error`, or -1 exactly when the level is not one of them |
| `Keeper.LogGate` | backend/src/keeper.ts:9-15 | errors always print; an unknown threshold prints everything; a known threshold suppresses unknown levels; raising a printed line's level keeps it printed |
| `Keeper.Profitable` | backend/src/keeper.ts:46 | exactly the candidates whose fee reaches the threshold, in scan order, each as often as it was scanned; the others never |
| `Keeper.Take` | backend/src/keeper.ts:50 | `slice(0, n)`: a prefix of length `min(n, length)` |
| `Keeper.Selection` | backend/src/keeper.ts:46-50 | a prefix of the profitable list of length exactly `min(batchSize, profitable count)`, so each a scanned candidate whose fee reaches the threshold |
| `Keeper.DefaultThresholdScenario` | backend/src/keeper.ts:46-50 | with the defaults, two charges of 100000 (fee 200) are dropped and one of 1000000 (fee 2000) is selected |
| `Keeper.Attempted` | backend/src/keeper.ts:49-59 | one attempt per charge of the batch, in batch order |
| `Keeper.SubmitSequentially` | backend/src/keeper.ts:49-59 | the loop's attempts are exactly the declarative list: every charge of the batch in order, each with its `executeCharge` outcome, a failure not stopping the loop; `executed` counts the successes |
| `Keeper.RunKeeperCycle` | backend/src/keeper.ts:21-67 | a set flag skips the cycle with nothing done and the flag still set; otherwise `CycleDone` holds: the flag is clear on every exit; a failed block-height or scan query ends the cycle with nothing submitted; an empty scan submits nothing; otherwise the attempts are exactly the selection, in order, each with its own `executeCharge` outcome, and `executed` counts the successes; every attempted charge's fee reaches the threshold |
| `Keeper.StartKeeper` | backend/src/keeper.ts:69-96 | an empty key exits with status 1 before any cycle or timer; otherwise the first cycle's end, attempts and flag meet `CycleDone` for the chain and broadcaster at hand, exactly as a tick of `RunKeeperCycle` with the flag clear, and the timer period is `checkInterval·60·1000` ms |
| `BlockPeriods.BlockConstants` | src/lib/stacks-config.ts:21-23 | a week is 7 days of blocks and a month 30 |
| `BlockPeriods.RoundDiv` | src/lib/stacks-config.ts:27 | `Math.round(blocks/unit)`: the nearest integer, halves rounded up |
| `BlockPeriods.Breakdown` | src/lib/stacks-config.ts:25-35 | months when blocks ≥ 4320, weeks when 1008 ≤ blocks < 4320, days otherwise; the count is the rounded quotient; weeks count 1..4, months ≥ 1, days 0..7 for non-negative blocks |
| `BlockPeriods.LabelRoundTrip` | src/lib/stacks-config.ts:28-35 | every label reads back as the unit and count it was made from |
| `BlockPeriods.BlocksToReadablePeriod` | src/lib/stacks-config.ts:25-36 | the label reads back as the breakdown; it is `Daily`/`Weekly`/`Monthly` exactly when the count is 1 in that unit's range, otherwise `Every N <unit>s` |
| `BlockPeriods.ParseLabelCanonical` | src/lib/stacks-config.ts:25-36 | only labels are read back: any text that names a period is exactly that period's label, so the label and the period determine each other |
| `BlockPeriods.ToLowerIdempotent` | src/lib/stacks-config.ts:39 | lowering case twice is lowering once |
| `BlockPeriods.ReadablePeriodToBlocks` | src/lib/stacks-config.ts:38-49 | 144 exactly for `daily` in any case, 1008 exactly for `weekly`, 4320 for everything else |
| `BlockPeriods.ReadablePeriodCaseInsensitive` | src/lib/stacks-config.ts:39 | a word and its lower-case form map to the same block count |
| `BlockPeriods.PeriodWordRoundTrip` | src/lib/stacks-config.ts:25-49 | a period word turned into blocks and back gives `Daily`, `Weekly` or `Monthly` for the matching word, and `Monthly` for any other text |

## Left out

- Timers and scheduling (`setInterval`, node-cron): the model returns the timer period and runs the first cycle. A run of later ticks is not modelled; each tick is one call of `RunKeeperCycle`.
- Real concurrency: the single-flight flag is checked once at cycle entry. Interleaved cycles are not modelled. The flag is passed in and returned.
- Console output, timestamps and `formatSTX` (floating-point `toFixed`) are output formatting only. `process.exit(1)` becomes the returned exit code.
- The Stacks SDK (`callReadOnlyFunction`, `cvToJSON`, `makeContractCall`, `broadcastTransaction`, network objects) is foreign code and is represented by the oracle. A Clarity value that throws while being decoded (a missing tuple field, say) appears only as a `Fault` of that query.
- Contract address resolution: calls do not record which contract they address. `parseContractId` is modelled on its own in `Config`.
- The anchor mode and the permissive post-condition mode of submitted calls are SDK options with no effect on the keeper's logic.
- Chain changes between the queries of one scan: the oracle is fixed for a cycle, so the staleness window is not modelled.
- JavaScript number precision: the oracle supplies exact integers, and `KeeperFee` and `RoundDiv` use exact integer arithmetic. The double-precision results agree with them only in these ranges (an argument, not proved here):
  - `KeeperFee`: `Math.floor((amount * 20) / 10000)` agrees for `0 <= 20·amount <= 2^53`, that is amounts up to about 4.5·10^14. Within that range the product is exact. The fee stays below 2^40, where doubles are spaced at most 2^-13 apart, so a correctly rounded quotient cannot reach the next integer, which is at least 1/10000 away. Above that range the double result can be one too high.
  - `RoundDiv`: `Math.round(blocks / unit)` agrees for `-2^46 < blocks < 2^51`. The quotient then stays below 2^39 in magnitude, so its rounding cannot cross a half-integer, which is at least 1/8640 away.
- Keeper.StartKeeper: runs the first cycle to completion. keeper.ts does not await it, so the timer is set up while that cycle may still be pending. Only the order of the two events differs; the cycle's outcome and the period are the same.
- Config.LoadSettings: requires each numeric variable to be unset, empty or a plain run of decimal digits. `parseInt` leniency (whitespace, signs, trailing text, `NaN`) is not modelled. Negative values, and so JavaScript's `slice(0, negative)`, are excluded by the `nat` fields.
- Config.GetNetwork: returns a network tag, not the SDK's network object.
- BlockPeriods.BlocksToReadablePeriod: takes the block count as an integer, as is the on-chain `interval-blocks` it is called with. A fractional JavaScript `number` such as 1.5 is not modelled.
- BlockPeriods.ToLower: folds A–Z and the Kelvin sign only. Every other character is kept. This does not change which period word matches, because JavaScript lowercases any other character to non-ASCII text.
- The front end's `CONTRACTS` and `STACKS_NETWORK` constants in src/lib/stacks-config.ts are display constants that the keeper does not use.

=== FILE: block_periods.dfy ===
/** Block-count periods of the front end's chain settings (src/lib/stacks-config.ts):
    the block-time constants, a human label for an interval in blocks, and the
    interval named by a period word. */
module BlockPeriods {
  import opened Outcomes
  import Decimal

  // Stacks produces a block roughly every ten minutes.
  const BlocksPerDay: int := 144
  const BlocksPerMonth: int := 4320
  const BlocksPerWeek: int := 1008

  /** A week is seven days and a month thirty. */
  lemma BlockConstants()
    ensures BlocksPerWeek == 7 * BlocksPerDay
    ensures BlocksPerMonth == 30 * BlocksPerDay
  {
  }

  datatype Unit = Day | Week | Month

  function UnitBlocks(u: Unit): (n: int)
    ensures n > 0
  {
    match u
    case Day => BlocksPerDay
    case Week => BlocksPerWeek
    case Month => BlocksPerMonth
  }

  /** `Math.round(blocks / unit)`: the nearest integer, halves rounded up. */
  function RoundDiv(blocks: int, unit: int): (n: int)
    requires unit > 0
    ensures 2 * unit * n <= 2 * blocks + unit < 2 * unit * (n + 1)
  {
    var q := (2 * blocks + unit) / (2 * unit);
    assert 2 * blocks + unit == (2 * unit) * q + (2 * blocks + unit) % (2 * unit);
    q
  }

  /** An interval as a count of days, weeks or months. */
  datatype Period = Period(unit: Unit, count: int)

  /** The unit `blocksToReadablePeriod` picks and the rounded count in it. */
  function Breakdown(blocks: int): (p: Period)
    ensures p.unit == Month <==> blocks >= BlocksPerMonth
    ensures p.unit == Week <==> BlocksPerWeek <= blocks < BlocksPerMonth
    ensures p.unit == Day <==> blocks < BlocksPerWeek
    ensures 2 * UnitBlocks(p.unit) * p.count <= 2 * blocks + UnitBlocks(p.unit) < 2 * UnitBlocks(p.unit) * (p.count + 1)
    ensures p.unit == Month ==> p.count >= 1
    ensures p.unit == Week ==> 1 <= p.count <= 4
    ensures p.unit == Day && blocks >= 0 ==> 0 <= p.count <= 7
  {
    if blocks >= BlocksPerMonth then Period(Month, RoundDiv(blocks, BlocksPerMonth))
    else if blocks >= BlocksPerWeek then Period(Week, RoundDiv(blocks, BlocksPerWeek))
    else Period(Day, RoundDiv(blocks, BlocksPerDay))
  }

  function SingularLabel(u: Unit): string {
    match u
    case Day => "Daily"
    case Week => "Weekly"
    case Month => "Monthly"
  }

  /** The plural unit after the count in `Every N <unit>s`. */
  function Plural(u: Unit): string {
    match u
    case Day => " days"
    case Week => " weeks"
    case Month => " months"
  }

  /** The text for a period: the adverb for a count of one, `Every N <unit>s` otherwise. */
  function Label(p: Period): string {
    if p.count == 1 then SingularLabel(p.unit)
    else "Every " + Decimal.IntToString(p.count) + Plural(p.unit)
  }

  /** `blocksToReadablePeriod`. */
  function BlocksToReadablePeriod(blocks: int): (text: string)
    ensures ParseLabel(text) == Some(Breakdown(blocks))
    ensures text == "Monthly" <==> blocks >= BlocksPerMonth && Breakdown(blocks).count == 1
    ensures text == "Weekly" <==> BlocksPerWeek <= blocks < BlocksPerMonth && Breakdown(blocks).count == 1
    ensures text == "Daily" <==> blocks < BlocksPerWeek && Breakdown(blocks).count == 1
  {
    LabelRoundTrip(Breakdown(blocks));
    Label(Breakdown(blocks))
  }

  // ---------------------------------------------------------------------------
  // Reading a label back

  predicate HasSuffix(s: string, suffix: string) {
    |suffix| <= |s| && s[|s| - |suffix|..] == suffix
  }

  /** `Every N <word>` with `N` an integer other than 1, written as the template renders it
      (no leading zeros, no `-0`). */
  function ParseEvery(rest: string, word: string, u: Unit): Option<Period>
    requires HasSuffix(rest, word)
  {
    var digits := rest[..|rest| - |word|];
    match Decimal.ParseInt(digits)
    case Some(n) => if n != 1 && Decimal.IntToString(n) == digits then Some(Period(u, n)) else None
    case None => None
  }

  /** Which period a label names, if it is one `Label` produces. */
  function ParseLabel(s: string): Option<Period> {
    if s == "Daily" then Some(Period(Day, 1))
    else if s == "Weekly" then Some(Period(Week, 1))
    else if s == "Monthly" then Some(Period(Month, 1))
    else if |s| >= 6 && s[..6] == "Every " then ParseRest(s[6..])
    else None
  }

  /** What follows `Every `: a count and a plural unit. */
  function ParseRest(rest: string): Option<Period> {
    if HasSuffix(rest, Plural(Day)) then ParseEvery(rest, Plural(Day), Day)
    else if HasSuffix(rest, Plural(Week)) then ParseEvery(rest, Plural(Week), Week)
    else if HasSuffix(rest, Plural(Month)) then ParseEvery(rest, Plural(Month), Month)
    else None
  }

  /** The count of an `Every N <unit>s` label reads back through its unit's suffix. */
  lemma EveryRoundTrip(n: int, word: string, u: Unit)
    requires n != 1 && word == Plural(u)
    ensures HasSuffix(Decimal.IntToString(n) + word, word)
    ensures ParseEvery(Decimal.IntToString(n) + word, word, u) == Some(Period(u, n))
  {
    var digits := Decimal.IntToString(n);
    var rest := digits + word;
    assert rest[|rest| - |word|..] == word;
    assert rest[..|rest| - |word|] == digits;
    Decimal.IntRoundTrip(n);
  }

  /** A plural unit word is not mistaken for a shorter one that precedes it in `ParseRest`. */
  lemma SuffixesDiffer(digits: string)
    ensures !HasSuffix(digits + Plural(Week), Plural(Day))
    ensures !HasSuffix(digits + Plural(Month), Plural(Day)) && !HasSuffix(digits + Plural(Month), Plural(Week))
  {
    var w := digits + Plural(Week);
    var m := digits + Plural(Month);
    assert w[|w| - 5..][0] == 'w';
    assert m[|m| - 5..][0] == 'o';
    assert m[|m| - 6..][0] == 'm';
  }

  /** The text after `Every ` in a label reads back as its count and unit. */
  lemma DaysRoundTrip(n: int)
    requires n != 1
    ensures ParseRest(Decimal.IntToString(n) + Plural(Day)) == Some(Period(Day, n))
  {
    EveryRoundTrip(n, Plural(Day), Day);
  }

  lemma WeeksRoundTrip(n: int)
    requires n != 1
    ensures ParseRest(Decimal.IntToString(n) + Plural(Week)) == Some(Period(Week, n))
  {
    EveryRoundTrip(n, Plural(Week), Week);
    SuffixesDiffer(Decimal.IntToString(n));
  }

  lemma MonthsRoundTrip(n: int)
    requires n != 1
    ensures ParseRest(Decimal.IntToString(n) + Plural(Month)) == Some(Period(Month, n))
  {
    EveryRoundTrip(n, Plural(Month), Month);
    SuffixesDiffer(Decimal.IntToString(n));
  }

  /** Every label names the period it was made from. */
  lemma LabelRoundTrip(p: Period)
    ensures ParseLabel(Label(p)) == Some(p)
  {
    if p.count != 1 {
      var rest := Decimal.IntToString(p.count) + Plural(p.unit);
      var s := "Every " + rest;
      assert Label(p) == s;
      assert s[..6] == "Every " && s[6..] == rest;
      assert s != "Daily" && s != "Weekly" && s != "Monthly" by {
        assert s[0] == 'E';
      }
      match p.unit {
        case Day => DaysRoundTrip(p.count);
        case Week => WeeksRoundTrip(p.count);
        case Month => MonthsRoundTrip(p.count);
      }
    }
  }

  /** One `Every N <unit>s` branch of `ParseLabelCanonical`. */
  lemma EveryCanonical(s: string, rest: string, word: string, u: Unit, p: Period)
    requires s == "Every " + rest && HasSuffix(rest, word) && word == Plural(u)
    requires ParseEvery(rest, word, u) == Some(p)
    ensures s == Label(p)
  {
    var digits := rest[..|rest| - |word|];
    assert rest == digits + word;
    assert digits == Decimal.IntToString(p.count);
  }

  /** The `Every N <unit>s` labels of `ParseLabelCanonical`. */
  lemma RestCanonical(rest: string, p: Period)
    requires ParseRest(rest) == Some(p)
    ensures "Every " + rest == Label(p)
  {
    if HasSuffix(rest, Plural(Day)) {
      EveryCanonical("Every " + rest, rest, Plural(Day), Day, p);
    } else if HasSuffix(rest, Plural(Week)) {
      EveryCanonical("Every " + rest, rest, Plural(Week), Week, p);
    } else {
      EveryCanonical("Every " + rest, rest, Plural(Month), Month, p);
    }
  }

  /** Only labels are read back: text that names a period is exactly that period's label, so no
      other spelling (`Every 02 days`, `Every -0 weeks`) could be produced for it. */
  lemma ParseLabelCanonical(s: string, p: Period)
    requires ParseLabel(s) == Some(p)
    ensures s == Label(p)
  {
    if s != "Daily" && s != "Weekly" && s != "Monthly" {
      assert s == s[..6] + s[6..];
      RestCanonical(s[6..], p);
    }
  }

  // ---------------------------------------------------------------------------
  // Period word to blocks

  /** `toLowerCase` as far as it matters for matching lower-case ASCII words: A-Z and the
      Kelvin sign (which lowercases to `k`) fold; every other character JavaScript either
      keeps or lowercases to non-ASCII text. */
  function LowerChar(c: char): char {
    if 'A' <= c <= 'Z' then (c as int + 32) as char
    else if c == '\U{212A}' then 'k'
    else c
  }

  function ToLower(s: string): (r: string)
    ensures |r| == |s| && forall i :: 0 <= i < |s| ==> r[i] == LowerChar(s[i])
  {
    seq(|s|, i requires 0 <= i < |s| => LowerChar(s[i]))
  }

  lemma ToLowerIdempotent(s: string)
    ensures ToLower(ToLower(s)) == ToLower(s)
  {
    var once := ToLower(s);
    forall i | 0 <= i < |s| ensures LowerChar(once[i]) == once[i] {
    }
  }

  /** `readablePeriodToBlocks`: a case-insensitive match on the three period words; any other
      text means a month. */
  function ReadablePeriodToBlocks(period: string): (blocks: int)
    ensures blocks == BlocksPerDay <==> ToLower(period) == "daily"
    ensures blocks == BlocksPerWeek <==> ToLower(period) == "weekly"
    ensures blocks == BlocksPerMonth <==> ToLower(period) != "daily" && ToLower(period) != "weekly"
  {
    match ToLower(period)
    case "daily" => BlocksPerDay
    case "weekly" => BlocksPerWeek
    case "monthly" => BlocksPerMonth
    case _ => BlocksPerMonth
  }

  /** Case does not matter: a word and its lower-case form name the same interval. */
  lemma ReadablePeriodCaseInsensitive(period: string)
    ensures ReadablePeriodToBlocks(ToLower(period)) == ReadablePeriodToBlocks(period)
  {
    ToLowerIdempotent(period);
  }

  /** A period word, turned into blocks and back, gives its label; unknown words give `Monthly`. */
  lemma PeriodWordRoundTrip(period: string)
    ensures BlocksToReadablePeriod(ReadablePeriodToBlocks(period)) ==
              if ToLower(period) == "daily" then "Daily"
              else if ToLower(period) == "weekly" then "Weekly"
              else "Monthly"
  {
    assert Breakdown(BlocksPerDay) == Period(Day, 1);
    assert Breakdown(BlocksPerWeek) == Period(Week, 1);
    assert Breakdown(BlocksPerMonth) == Period(Month, 1);
  }
}

=== FILE: chain.dfy ===
/** The chain as the keeper sees it: an oracle answering each read-only query
    with a decoded value or a fault (transport error, timeout, bad response),
    and a broadcast endpoint answering each signed contract call. Nothing is
    cached: every query is a fresh call, and the oracle is taken as fixed for
    the length of one keeper cycle. */
module Chain {
  import opened Outcomes

  /** A chain address (subscriber, merchant or operator). */
  type Principal = string

  type TxId = string

  /** The answer to one remote call: the decoded JSON value, or a fault. */
  datatype Reply<+T> = Answer(value: T) | Fault

  /** The tuple `get-plan` returns inside its `some` wrapper. */
  datatype PlanFields = PlanFields(
    merchant: Principal,
    amount: int,
    intervalBlocks: int,
    active: bool,
    subscriberCount: int)

  /** The tuple `get-subscription` returns inside its `some` wrapper. */
  datatype SubscriptionFields = SubscriptionFields(
    planAmount: int,
    planInterval: int,
    active: bool)

  /** The `value` field of the decoded `get-plan-subscribers` result: a list of
      principals, or some other JSON shape (null, an object, ...). */
  datatype ListValue = Items(items: seq<Principal>) | NotAList

  /** The `value` field of the decoded `is-charge-due` result: a JSON boolean, or
      some other JSON shape (for one, a wrapped response). */
  datatype BoolValue = Flag(b: bool) | NotABool

  /** One entry of the block endpoint's `results`; `height` may be missing. */
  datatype BlockEntry = BlockEntry(height: Option<int>)

  /** Every read the keeper can make. Each function is total: a query on an
      unknown plan or subscriber answers `None` / `NotAList` / ... or faults. */
  datatype ChainView = ChainView(
    latestBlocks: Reply<seq<BlockEntry>>,
    totalPlans: Reply<int>,
    plan: int -> Reply<Option<PlanFields>>,
    subscribers: int -> Reply<ListValue>,
    chargeDue: (Principal, int) -> Reply<BoolValue>,
    subscription: (Principal, int) -> Reply<Option<SubscriptionFields>>,
    balance: Principal -> Reply<int>)

  /** A Clarity argument of a contract call. */
  datatype ClarityArg =
    | UintArg(n: int)
    | PrincipalArg(p: Principal)
    | ChargeTupleArg(subscriber: Principal, planId: int)   // `{subscriber, plan-id}`
    | ListArg(items: seq<ClarityArg>)

  /** A signed state-changing call on the engine contract, as handed to `broadcastTransaction`.
      `fee` is `None` when the caller lets the SDK estimate it. */
  datatype ContractCall = ContractCall(
    functionName: string,
    args: seq<ClarityArg>,
    senderKey: string,
    fee: Option<nat>)

  /** What the network does with a call: accepted with a transaction id, rejected
      with an error payload, or the SDK throws while building and signing it. */
  datatype SubmitReply = Accepted(txid: TxId) | Rejected(reason: string) | BuildFailed

  type Broadcaster = ContractCall -> SubmitReply

  /** The `execute-charge` call for one (subscriber, plan) pair. */
  function ChargeCall(subscriber: Principal, planId: int, key: string, fee: Option<nat>): ContractCall {
    ContractCall("execute-charge", [PrincipalArg(subscriber), UintArg(planId)], key, fee)
  }
}

=== FILE: config.dfy ===
/** The keeper's configuration surface (backend/src/config.ts): environment
    fallbacks, the default contract identifiers, network selection and the
    `address.name` contract-id split. */
module Config {
  import opened Outcomes
  import Decimal

  /** The process environment: variable name to value; a missing key is an unset variable. */
  type Env = map<string, string>

  /** The value of `name`, or `default` when it is unset or empty (empty strings are falsy). */
  function OptionalEnv(env: Env, name: string, default: string): (r: string)
    ensures name !in env || env[name] == "" ==> r == default
    ensures name in env && env[name] != "" ==> r == env[name]
    ensures r == "" ==> default == ""
  {
    if name in env && env[name] != "" then env[name] else default
  }

  /** Writing back what `OptionalEnv` read and reading again changes nothing. */
  lemma OptionalEnvIdempotent(env: Env, name: string, default: string)
    ensures var v := OptionalEnv(env, name, default);
            OptionalEnv(env[name := v], name, default) == v
  {
  }

  // ---------------------------------------------------------------------------
  // Contract identifiers

  const DefaultAddress: string := "ST1XWA7MJQ336S4910WZS1WVHJ5R4GS78FJ6QM5WD"
  const VaultName: string := "subscription-vault"
  const PlansName: string := "subscription-plans"
  const EngineName: string := "subscription-engine"

  predicate NoDot(s: string) {
    forall i :: 0 <= i < |s| ==> s[i] != '.'
  }

  /** Re-joins segments with `.` separators. */
  function JoinWithDots(parts: seq<string>): string
    requires |parts| >= 1
  {
    if |parts| == 1 then parts[0] else parts[0] + "." + JoinWithDots(parts[1..])
  }

  /** `String.prototype.split('.')`: the maximal dot-free segments, in order. */
  function SplitOnDots(s: string): (parts: seq<string>)
    ensures |parts| >= 1
    ensures forall i :: 0 <= i < |parts| ==> NoDot(parts[i])
    ensures JoinWithDots(parts) == s
    ensures |parts| == 1 <==> NoDot(s)
  {
    if |s| == 0 then [""]
    else
      var rest := SplitOnDots(s[1..]);
      if s[0] == '.' then
        assert ([""] + rest)[1..] == rest;
        [""] + rest
      else
        var parts := [[s[0]] + rest[0]] + rest[1..];
        assert parts[1..] == rest[1..];
        assert s == [s[0]] + s[1..];
        parts
  }

  lemma {:induction false} SplitDotFree(a: string)
    requires NoDot(a)
    ensures SplitOnDots(a) == [a]
  {
    if |a| > 0 {
      SplitDotFree(a[1..]);
      assert a == [a[0]] + a[1..];
    }
  }

  lemma {:induction false} SplitFirstSegment(a: string, rest: string)
    requires NoDot(a)
    ensures SplitOnDots(a + "." + rest) == [a] + SplitOnDots(rest)
  {
    var s := a + "." + rest;
    if |a| == 0 {
      assert s[1..] == rest;
    } else {
      assert s[1..] == a[1..] + "." + rest;
      SplitFirstSegment(a[1..], rest);
      var tail := SplitOnDots(s[1..]);
      assert tail[0] == a[1..] && tail[1..] == SplitOnDots(rest);
      assert s[0] == a[0] && s[0] != '.';
      assert [s[0]] + tail[0] == a;
    }
  }

  /** Splitting undoes joining: the dot-free segments of a joined id are exactly the parts joined. */
  lemma {:induction false} SplitJoinRoundTrip(parts: seq<string>)
    requires |parts| >= 1
    requires forall i :: 0 <= i < |parts| ==> NoDot(parts[i])
    ensures SplitOnDots(JoinWithDots(parts)) == parts
  {
    if |parts| == 1 {
      SplitDotFree(parts[0]);
    } else {
      SplitJoinRoundTrip(parts[1..]);
      SplitFirstSegment(parts[0], JoinWithDots(parts[1..]));
      assert parts == [parts[0]] + parts[1..];
    }
  }

  /** `const [address, name] = id.split('.')`: `name` is undefined when there is no dot. */
  datatype ContractId = ContractId(address: string, name: Option<string>)

  function ParseContractId(id: string): (r: ContractId)
    ensures NoDot(r.address)
    ensures r.name.Some? ==> NoDot(r.name.value)
    ensures r.name.None? <==> NoDot(id)
    ensures r.name.None? ==> r.address == id
    ensures r.name.Some? ==> |r.address| < |id| && id[..|r.address| + 1] == r.address + "."
  {
    var parts := SplitOnDots(id);
    if |parts| >= 2 then
      assert JoinWithDots(parts) == parts[0] + "." + JoinWithDots(parts[1..]);
      assert id[..|parts[0]| + 1] == parts[0] + ".";
      ContractId(parts[0], Some(parts[1]))
    else
      ContractId(parts[0], None)
  }

  /** `address.name` splits into its two halves. */
  lemma ParseContractIdOfPair(address: string, name: string)
    requires NoDot(address) && NoDot(name)
    ensures ParseContractId(address + "." + name) == ContractId(address, Some(name))
  {
    SplitFirstSegment(address, name);
    SplitDotFree(name);
  }

  /** Segments after the second are dropped: `a.n.x` still names `(a, n)`. */
  lemma ParseContractIdDropsExtra(address: string, name: string, extra: string)
    requires NoDot(address) && NoDot(name)
    ensures ParseContractId(address + "." + name + "." + extra) == ContractId(address, Some(name))
  {
    var rest := name + "." + extra;
    assert address + "." + name + "." + extra == address + "." + rest;
    SplitFirstSegment(address, rest);
    SplitFirstSegment(name, extra);
    var parts := SplitOnDots(address + "." + rest);
    assert parts == [address] + ([name] + SplitOnDots(extra));
    assert parts[0] == address && parts[1] == name;
  }

  // ---------------------------------------------------------------------------
  // Network selection

  datatype Network = Mainnet | Testnet | Devnet

  const MainnetApiUrl: string := "https://api.mainnet.hiro.so"
  const DevnetApiUrl: string := "http://localhost:3999"
  const TestnetApiUrl: string := "https://api.testnet.hiro.so"

  /** The API base URL for a selector; unknown selectors fall back to testnet. */
  function GetApiUrl(selector: string): (url: string)
    ensures url == MainnetApiUrl || url == DevnetApiUrl || url == TestnetApiUrl
  {
    match selector
    case "mainnet" => MainnetApiUrl
    case "devnet" => DevnetApiUrl
    case _ => TestnetApiUrl
  }

  /** The network object for a selector; unknown selectors fall back to testnet. */
  function GetNetwork(selector: string): (n: Network)
    ensures n == Mainnet ==> selector == "mainnet"
    ensures n == Devnet ==> selector == "devnet"
  {
    match selector
    case "mainnet" => Mainnet
    case "devnet" => Devnet
    case _ => Testnet
  }

  /** Which network a base URL of ours addresses. */
  function NetworkAt(url: string): Option<Network> {
    if url == MainnetApiUrl then Some(Mainnet)
    else if url == DevnetApiUrl then Some(Devnet)
    else if url == TestnetApiUrl then Some(Testnet)
    else None
  }

  /** For every selector, the API URL and the network object name the same network. */
  lemma ApiUrlAgreesWithNetwork(selector: string)
    ensures NetworkAt(GetApiUrl(selector)) == Some(GetNetwork(selector))
    ensures GetNetwork(selector) == Testnet <==> selector != "mainnet" && selector != "devnet"
  {
  }

  // ---------------------------------------------------------------------------
  // The configuration snapshot

  datatype ContractSet = ContractSet(vault: string, plans: string, engine: string)

  datatype KeeperSettings = KeeperSettings(
    privateKey: string,
    checkInterval: nat,
    batchSize: nat,
    minProfit: nat,
    maxPlans: nat)

  datatype Settings = Settings(
    network: string,
    contracts: ContractSet,
    keeper: KeeperSettings,
    logLevel: string)

  /** A numeric variable is unset, empty, or a plain run of decimal digits. */
  predicate NumericOk(env: Env, name: string) {
    name !in env || env[name] == "" || Decimal.ParseNat(env[name]).Some?
  }

  predicate NumericEnvOk(env: Env) {
    && NumericOk(env, "CHECK_INTERVAL")
    && NumericOk(env, "BATCH_SIZE")
    && NumericOk(env, "MIN_PROFIT")
    && NumericOk(env, "MAX_PLANS")
  }

  /** `parseInt(optionalEnv(name, String(default)))` for a decimal variable. */
  function NumericEnv(env: Env, name: string, default: nat): (r: nat)
    requires NumericOk(env, name)
    ensures name !in env || env[name] == "" ==> r == default
    ensures name in env && env[name] != "" ==> Decimal.ParseNat(env[name]) == Some(r)
  {
    Decimal.NatRoundTrip(default);
    Decimal.ParseNat(OptionalEnv(env, name, Decimal.NatToString(default))).value
  }

  /** `name` holds a non-empty value (a truthy `process.env[name]`). */
  predicate IsSet(env: Env, name: string) {
    name in env && env[name] != ""
  }

  /** The configuration snapshot: each setting is its variable's value when that is set, and the
      documented default otherwise; numeric settings are the number their digits denote. */
  function LoadSettings(env: Env): (s: Settings)
    requires NumericEnvOk(env)
    ensures s.keeper.privateKey == "" <==> !IsSet(env, "KEEPER_PRIVATE_KEY")
    ensures s.network != "" && s.logLevel != ""
    ensures && s.network == (if IsSet(env, "STACKS_NETWORK") then env["STACKS_NETWORK"] else "testnet")
            && s.logLevel == (if IsSet(env, "LOG_LEVEL") then env["LOG_LEVEL"] else "info")
            && (IsSet(env, "KEEPER_PRIVATE_KEY") ==> s.keeper.privateKey == env["KEEPER_PRIVATE_KEY"])
    ensures && (IsSet(env, "VAULT_CONTRACT") ==> s.contracts.vault == env["VAULT_CONTRACT"])
            && (!IsSet(env, "VAULT_CONTRACT") ==> s.contracts.vault == DefaultAddress + "." + VaultName)
            && (IsSet(env, "PLANS_CONTRACT") ==> s.contracts.plans == env["PLANS_CONTRACT"])
            && (!IsSet(env, "PLANS_CONTRACT") ==> s.contracts.plans == DefaultAddress + "." + PlansName)
            && (IsSet(env, "ENGINE_CONTRACT") ==> s.contracts.engine == env["ENGINE_CONTRACT"])
            && (!IsSet(env, "ENGINE_CONTRACT") ==> s.contracts.engine == DefaultAddress + "." + EngineName)
    ensures && (IsSet(env, "CHECK_INTERVAL") ==> Decimal.ParseNat(env["CHECK_INTERVAL"]) == Some(s.keeper.checkInterval))
            && (!IsSet(env, "CHECK_INTERVAL") ==> s.keeper.checkInterval == 10)
            && (IsSet(env, "BATCH_SIZE") ==> Decimal.ParseNat(env["BATCH_SIZE"]) == Some(s.keeper.batchSize))
            && (!IsSet(env, "BATCH_SIZE") ==> s.keeper.batchSize == 10)
            && (IsSet(env, "MIN_PROFIT") ==> Decimal.ParseNat(env["MIN_PROFIT"]) == Some(s.keeper.minProfit))
            && (!IsSet(env, "MIN_PROFIT") ==> s.keeper.minProfit == 1000)
            && (IsSet(env, "MAX_PLANS") ==> Decimal.ParseNat(env["MAX_PLANS"]) == Some(s.keeper.maxPlans))
            && (!IsSet(env, "MAX_PLANS") ==> s.keeper.maxPlans == 100)
  {
    Settings(
      OptionalEnv(env, "STACKS_NETWORK", "testnet"),
      ContractSet(
        OptionalEnv(env, "VAULT_CONTRACT", DefaultAddress + "." + VaultName),
        OptionalEnv(env, "PLANS_CONTRACT", DefaultAddress + "." + PlansName),
        OptionalEnv(env, "ENGINE_CONTRACT", DefaultAddress + "." + EngineName)),
      KeeperSettings(
        OptionalEnv(env, "KEEPER_PRIVATE_KEY", ""),
        NumericEnv(env, "CHECK_INTERVAL", 10),
        NumericEnv(env, "BATCH_SIZE", 10),
        NumericEnv(env, "MIN_PROFIT", 1000),
        NumericEnv(env, "MAX_PLANS", 100)),
      OptionalEnv(env, "LOG_LEVEL", "info"))
  }

  /** `env` spells out `s`: every variable holds its setting, numbers in decimal. */
  predicate SpellsOut(env: Env, s: Settings) {
    && "STACKS_NETWORK" in env && env["STACKS_NETWORK"] == s.network
    && "VAULT_CONTRACT" in env && env["VAULT_CONTRACT"] == s.contracts.vault
    && "PLANS_CONTRACT" in env && env["PLANS_CONTRACT"] == s.contracts.plans
    && "ENGINE_CONTRACT" in env && env["ENGINE_CONTRACT"] == s.contracts.engine
    && "KEEPER_PRIVATE_KEY" in env && env["KEEPER_PRIVATE_KEY"] == s.keeper.privateKey
    && "CHECK_INTERVAL" in env && env["CHECK_INTERVAL"] == Decimal.NatToString(s.keeper.checkInterval)
    && "BATCH_SIZE" in env && env["BATCH_SIZE"] == Decimal.NatToString(s.keeper.batchSize)
    && "MIN_PROFIT" in env && env["MIN_PROFIT"] == Decimal.NatToString(s.keeper.minProfit)
    && "MAX_PLANS" in env && env["MAX_PLANS"] == Decimal.NatToString(s.keeper.maxPlans)
    && "LOG_LEVEL" in env && env["LOG_LEVEL"] == s.logLevel
  }

  /** Loading an environment that spells out a snapshot gives that snapshot back, for every
      snapshot whose text settings are non-empty (an empty one would fall back to its default);
      the private key may be empty. */
  lemma LoadSettingsRoundTrip(env: Env, s: Settings)
    requires s.network != "" && s.logLevel != ""
    requires s.contracts.vault != "" && s.contracts.plans != "" && s.contracts.engine != ""
    requires SpellsOut(env, s)
    ensures NumericEnvOk(env)
    ensures LoadSettings(env) == s
  {
    Decimal.NatRoundTrip(s.keeper.checkInterval);
    Decimal.NatRoundTrip(s.keeper.batchSize);
    Decimal.NatRoundTrip(s.keeper.minProfit);
    Decimal.NatRoundTrip(s.keeper.maxPlans);
    var r := LoadSettings(env);
    assert r.network == s.network && r.logLevel == s.logLevel;
    assert r.contracts == s.contracts;
    assert r.keeper == s.keeper;
  }

  /** With nothing set, the snapshot holds the documented defaults. */
  lemma DefaultSettings()
    ensures LoadSettings(map[]) == Settings(
      "testnet",
      ContractSet(DefaultAddress + "." + VaultName, DefaultAddress + "." + PlansName, DefaultAddress + "." + EngineName),
      KeeperSettings("", 10, 10, 1000, 100),
      "info")
  {
  }

  /** The default deployer address and the contract names contain no dot. */
  lemma DefaultNamesDotFree()
    ensures NoDot(DefaultAddress) && NoDot(VaultName) && NoDot(PlansName) && NoDot(EngineName)
  {
  }

  /** A contract variable left unset or empty falls back to an id that splits into the default
      deployer and that contract's name. */
  lemma DefaultContractIdsSplit(env: Env)
    requires NumericEnvOk(env)
    ensures !IsSet(env, "VAULT_CONTRACT") ==>
              ParseContractId(LoadSettings(env).contracts.vault) == ContractId(DefaultAddress, Some(VaultName))
    ensures !IsSet(env, "PLANS_CONTRACT") ==>
              ParseContractId(LoadSettings(env).contracts.plans) == ContractId(DefaultAddress, Some(PlansName))
    ensures !IsSet(env, "ENGINE_CONTRACT") ==>
              ParseContractId(LoadSettings(env).contracts.engine) == ContractId(DefaultAddress, Some(EngineName))
  {
    DefaultNamesDotFree();
    var contracts := LoadSettings(env).contracts;
    if !IsSet(env, "VAULT_CONTRACT") {
      assert contracts.vault == DefaultAddress + "." + VaultName;
      ParseContractIdOfPair(DefaultAddress, VaultName);
    }
    if !IsSet(env, "PLANS_CONTRACT") {
      assert contracts.plans == DefaultAddress + "." + PlansName;
      ParseContractIdOfPair(DefaultAddress, PlansName);
    }
    if !IsSet(env, "ENGINE_CONTRACT") {
      assert contracts.engine == DefaultAddress + "." + EngineName;
      ParseContractIdOfPair(DefaultAddress, EngineName);
    }
  }
}

=== FILE: contracts.dfy ===
/** The fail-closed contract layer (backend/src/contracts.ts): every contract read
    maps a failure to a fixed default (0, false, [], absent), while the block-height
    fetch throws; the submitters check the operator key before building any transaction.
    The operator key is a parameter here; contracts.ts reads it from a module-level setting. */
module Contracts {
  import opened Outcomes
  import opened Chain
  import StacksClient

  // ---------------------------------------------------------------------------
  // Fail-closed reads

  /** The decoded answer, or `default` when the call failed. */
  function FailClosed<T, U>(reply: Reply<T>, decode: T -> U, default: U): (r: U)
    ensures reply.Fault? ==> r == default
    ensures reply.Answer? ==> r == decode(reply.value)
  {
    match reply
    case Answer(v) => decode(v)
    case Fault => default
  }

  /** Block height has no fallback here: a failed fetch is thrown. */
  function GetCurrentBlockHeight(chain: ChainView): (r: Result<int, StacksClient.Query>)
    ensures r.Failure? <==> chain.latestBlocks.Fault?
    ensures r.Success? ==> r.value == StacksClient.BlockHeightOf(chain.latestBlocks.value)
    ensures r.Success? && (|chain.latestBlocks.value| == 0 || chain.latestBlocks.value[0].height.None?) ==> r.value == 0
  {
    StacksClient.GetCurrentBlockHeight(chain)
  }

  function GetTotalPlans(chain: ChainView): (n: int)
    ensures chain.totalPlans.Fault? ==> n == 0
    ensures chain.totalPlans.Answer? ==> n == chain.totalPlans.value
  {
    FailClosed(chain.totalPlans, (n: int) => n, 0)
  }

  function GetPlan(chain: ChainView, id: int): (p: Option<PlanFields>)
    ensures chain.plan(id).Fault? ==> p.None?
    ensures chain.plan(id).Answer? ==> p == chain.plan(id).value
  {
    FailClosed(chain.plan(id), (raw: Option<PlanFields>) => raw, None)
  }

  function GetPlanSubscribers(chain: ChainView, id: int): (subs: seq<Principal>)
    ensures chain.subscribers(id).Fault? ==> subs == []
    ensures chain.subscribers(id) == Answer(NotAList) ==> subs == []
    ensures chain.subscribers(id).Answer? && chain.subscribers(id).value.Items? ==> subs == chain.subscribers(id).value.items
  {
    FailClosed(chain.subscribers(id), StacksClient.DecodeSubscribers, [])
  }

  function IsChargeDue(chain: ChainView, subscriber: Principal, id: int): (due: bool)
    ensures due <==> chain.chargeDue(subscriber, id) == Answer(Flag(true))
  {
    FailClosed(chain.chargeDue(subscriber, id), StacksClient.DecodeDue, false)
  }

  function GetSubscription(chain: ChainView, subscriber: Principal, id: int): (s: Option<SubscriptionFields>)
    ensures chain.subscription(subscriber, id).Fault? ==> s.None?
    ensures chain.subscription(subscriber, id).Answer? ==> s == chain.subscription(subscriber, id).value
  {
    FailClosed(chain.subscription(subscriber, id), (raw: Option<SubscriptionFields>) => raw, None)
  }

  function GetBalance(chain: ChainView, user: Principal): (n: int)
    ensures chain.balance(user).Fault? ==> n == 0
    ensures chain.balance(user).Answer? ==> n == chain.balance(user).value
  {
    FailClosed(chain.balance(user), (n: int) => n, 0)
  }

  /** Each fail-closed read is the propagating read of the keeper's client with its
      thrown error replaced by the fixed default. */
  lemma FailClosedIsDefaultedClient(chain: ChainView, id: int, subscriber: Principal)
    ensures GetTotalPlans(chain) == StacksClient.GetTotalPlans(chain).GetOr(0)
    ensures GetPlanSubscribers(chain, id) == StacksClient.GetPlanSubscribers(chain, id).GetOr([])
    ensures IsChargeDue(chain, subscriber, id) == StacksClient.IsChargeDue(chain, subscriber, id).GetOr(false)
    ensures GetBalance(chain, subscriber) == StacksClient.GetVaultBalance(chain, subscriber).GetOr(0)
    ensures GetPlan(chain, id).Some? <==> StacksClient.GetPlan(chain, id).GetOr(None).Some?
    ensures GetPlan(chain, id).Some? ==>
              GetPlan(chain, id).value == StacksClient.PlanFieldsOf(StacksClient.GetPlan(chain, id).value.value)
    ensures GetSubscription(chain, subscriber, id).Some? <==>
              StacksClient.GetSubscription(chain, subscriber, id).GetOr(None).Some?
    ensures GetSubscription(chain, subscriber, id).Some? ==>
              var s := StacksClient.GetSubscription(chain, subscriber, id).value.value;
              GetSubscription(chain, subscriber, id).value == SubscriptionFields(s.planAmount, s.planInterval, s.active)
  {
  }

  // ---------------------------------------------------------------------------
  // Submission

  /** One (subscriber, plan) pair to charge. */
  datatype ChargeRef = ChargeRef(subscriber: Principal, planId: int)

  /** The error thrown when no operator key is configured. */
  datatype KeyMissing = KeyMissing

  /** What a submitter did: its result (a thrown error, or a transaction id / `null`),
      and the call it built and broadcast, if any. */
  datatype Submission = Submission(outcome: Result<Option<TxId>, KeyMissing>, call: Option<ContractCall>)

  /** `executeCharge`: key check first, then build and broadcast; any build or broadcast
      failure reads as `null`. The SDK estimates the fee. */
  function ExecuteCharge(key: string, broadcast: Broadcaster, subscriber: Principal, planId: int): (r: Submission)
    ensures key == "" <==> r.outcome.Failure?
    ensures key == "" ==> r.call.None?
    ensures key != "" ==> r.call == Some(ChargeCall(subscriber, planId, key, None))
    ensures key != "" ==>
              var reply := broadcast(ChargeCall(subscriber, planId, key, None));
              && (r.outcome.value.Some? <==> reply.Accepted?)
              && (reply.Accepted? ==> r.outcome.value == Some(reply.txid))
  {
    if key == "" then Submission(Failure(KeyMissing), None)
    else
      var call := ChargeCall(subscriber, planId, key, None);
      match broadcast(call)
      case Accepted(txid) => Submission(Success(Some(txid)), Some(call))
      case Rejected(_) => Submission(Success(None), Some(call))
      case BuildFailed => Submission(Success(None), Some(call))
  }

  /** The most charges one batch transaction carries. */
  const MaxBatch: nat := 10

  /** The `batch-execute-charges` call: one `{subscriber, plan-id}` tuple per charge, in order. */
  function BatchCall(batch: seq<ChargeRef>, key: string): (call: ContractCall)
    ensures |call.args| == 1 && call.args[0].ListArg? && |call.args[0].items| == |batch|
    ensures forall i :: 0 <= i < |batch| ==>
              call.args[0].items[i] == ChargeTupleArg(batch[i].subscriber, batch[i].planId)
  {
    ContractCall(
      "batch-execute-charges",
      [ListArg(seq(|batch|, i requires 0 <= i < |batch| => ChargeTupleArg(batch[i].subscriber, batch[i].planId)))],
      key,
      None)
  }

  predicate IsChargeTuple(a: ClarityArg) {
    a.ChargeTupleArg?
  }

  /** Reads the charges back out of a `batch-execute-charges` call. */
  function BatchEntries(call: ContractCall): Option<seq<ChargeRef>> {
    if call.functionName == "batch-execute-charges" && |call.args| == 1 && call.args[0].ListArg?
       && forall i :: 0 <= i < |call.args[0].items| ==> IsChargeTuple(call.args[0].items[i])
    then
      var items := call.args[0].items;
      Some(seq(|items|, i requires 0 <= i < |items| && IsChargeTuple(items[i]) =>
             ChargeRef(items[i].subscriber, items[i].planId)))
    else None
  }

  /** The batch call carries exactly the charges it was built from, pairing and order kept. */
  lemma BatchCallRoundTrip(batch: seq<ChargeRef>, key: string)
    ensures BatchEntries(BatchCall(batch, key)) == Some(batch)
  {
    var call := BatchCall(batch, key);
    var items := call.args[0].items;
    assert forall i :: 0 <= i < |items| ==> IsChargeTuple(items[i]);
    var decoded := seq(|items|, i requires 0 <= i < |items| && IsChargeTuple(items[i]) =>
                         ChargeRef(items[i].subscriber, items[i].planId));
    assert decoded == batch;
  }

  /** `executeBatchCharges`: key check, then an empty batch is a no-op, then at most the
      first `MaxBatch` charges go into one transaction. */
  function ExecuteBatchCharges(key: string, broadcast: Broadcaster, charges: seq<ChargeRef>): (r: Submission)
    ensures key == "" ==> r == Submission(Failure(KeyMissing), None)
    ensures key != "" && |charges| == 0 ==> r == Submission(Success(None), None)
    ensures key != "" && |charges| > 0 ==>
              && r.outcome.Success?
              && r.call.Some?
              && r.call.value.senderKey == key
              && r.call.value.fee.None?
              && BatchEntries(r.call.value) == Some(charges[..if |charges| <= MaxBatch then |charges| else MaxBatch])
    ensures r.call.Some? ==>
              (r.outcome.value.Some? <==> broadcast(r.call.value).Accepted?)
              && (broadcast(r.call.value).Accepted? ==> r.outcome.value == Some(broadcast(r.call.value).txid))
  {
    if key == "" then Submission(Failure(KeyMissing), None)
    else if |charges| == 0 then Submission(Success(None), None)
    else
      var batch := if |charges| > MaxBatch then charges[..MaxBatch] else charges;
      var call := BatchCall(batch, key);
      BatchCallRoundTrip(batch, key);
      assert charges[..|charges|] == charges;
      match broadcast(call)
      case Accepted(txid) => Submission(Success(Some(txid)), Some(call))
      case Rejected(_) => Submission(Success(None), Some(call))
      case BuildFailed => Submission(Success(None), Some(call))
  }
}

=== FILE: decimal.dfy ===
/** Decimal text for integers: the rendering JavaScript gives an integral
    `number` in a template string, and the digit-string reading `parseInt`
    gives a plain run of decimal digits. */
module Decimal {
  import opened Outcomes

  predicate IsDigit(c: char) {
    '0' <= c <= '9'
  }

  predicate AllDigits(s: string) {
    forall i :: 0 <= i < |s| ==> IsDigit(s[i])
  }

  function DigitChar(d: nat): (c: char)
    requires d < 10
    ensures IsDigit(c) && DigitValue(c) == d
  {
    (d + '0' as int) as char
  }

  function DigitValue(c: char): nat
    requires IsDigit(c)
  {
    c as int - '0' as int
  }

  /** The number a non-empty run of decimal digits denotes (leading zeros allowed). */
  function DigitsValue(s: string): nat
    requires AllDigits(s)
  {
    if |s| == 0 then 0 else DigitsValue(s[..|s| - 1]) * 10 + DigitValue(s[|s| - 1])
  }

  /** Shortest decimal rendering of a natural number. */
  function NatToString(n: nat): (s: string)
    ensures |s| > 0 && AllDigits(s)
    ensures |s| > 1 ==> s[0] != '0'
  {
    if n < 10 then [DigitChar(n)] else NatToString(n / 10) + [DigitChar(n % 10)]
  }

  /** Rendering of an integer, with a leading minus sign when negative. */
  function IntToString(i: int): (s: string)
    ensures |s| > 0
    ensures s[0] == '-' <==> i < 0
    ensures forall k :: 0 <= k < |s| ==> s[k] != ' ' && s[k] != '.'
  {
    if i < 0 then "-" + NatToString(-i) else NatToString(i)
  }

  /** Reads a non-empty run of decimal digits; anything else is not a number. */
  function ParseNat(s: string): (r: Option<nat>)
    ensures r.Some? <==> |s| > 0 && AllDigits(s)
  {
    if |s| > 0 && AllDigits(s) then Some(DigitsValue(s)) else None
  }

  /** Reads an optionally minus-signed run of decimal digits. */
  function ParseInt(s: string): (r: Option<int>)
    ensures r.Some? && |s| > 0 && s[0] != '-' ==> r.value >= 0
  {
    if |s| > 0 && s[0] == '-' then
      match ParseNat(s[1..])
      case Some(n) => Some(0 - n as int)
      case None => None
    else
      match ParseNat(s)
      case Some(n) => Some(n as int)
      case None => None
  }

  lemma {:induction false} DigitsValueOfRendering(n: nat)
    ensures DigitsValue(NatToString(n)) == n
    decreases n
  {
    if n >= 10 {
      var prefix := NatToString(n / 10);
      var s := prefix + [DigitChar(n % 10)];
      assert s[..|s| - 1] == prefix;
      DigitsValueOfRendering(n / 10);
    }
  }

  /** Reading back the rendering of a natural number gives the number. */
  lemma NatRoundTrip(n: nat)
    ensures ParseNat(NatToString(n)) == Some(n)
  {
    DigitsValueOfRendering(n);
  }

  /** Reading back the rendering of an integer gives the integer. */
  lemma IntRoundTrip(i: int)
    ensures ParseInt(IntToString(i)) == Some(i)
  {
    var s := IntToString(i);
    if i < 0 {
      assert s[1..] == NatToString(-i);
      NatRoundTrip(-i);
    } else {
      NatRoundTrip(i);
    }
  }
}

=== FILE: keeper.dfy ===
/** The keeper cycle controller (backend/src/keeper.ts): the keeper fee, the log
    level gate, the single-flight `isRunning` flag, the profit filter and batch
    cap, the sequential submit loop, and the startup key guard. Timers, console
    output and process exit are represented by what they would be given
    (the timer period, the exit code). */
module Keeper {
  import opened Outcomes
  import opened Chain
  import Config
  import StacksClient
  import Sequences

  type Candidate = StacksClient.Candidate

  // ---------------------------------------------------------------------------
  // Keeper fee

  /** The keeper's cut of a charge: 0.2%, rounded down (`Math.floor(amount * 20 / 10000)`). */
  function KeeperFee(amount: int): (fee: int)
    ensures 10000 * fee <= 20 * amount < 10000 * (fee + 1)
  {
    (amount * 20) / 10000
  }

  /** The fee is non-negative and at most the amount for non-negative amounts, and never
      decreases as the amount grows. */
  lemma FeeBounds(amount: int, larger: int)
    requires amount <= larger
    ensures amount >= 0 ==> 0 <= KeeperFee(amount) <= amount
    ensures KeeperFee(amount) <= KeeperFee(larger)
  {
  }

  // ---------------------------------------------------------------------------
  // Log level gate

  const Levels: seq<string> := ["debug", "info", "warn", "error"]

  /** `levels.indexOf(level)`: the position of `level`, or -1 when it is not a level. */
  function LevelIndex(level: string): (i: int)
    ensures -1 <= i < |Levels|
    ensures i >= 0 ==> Levels[i] == level
    ensures i == -1 <==> level !in Levels
  {
    if level == "debug" then 0
    else if level == "info" then 1
    else if level == "warn" then 2
    else if level == "error" then 3
    else -1
  }

  /** A line at `level` is printed when its level is at or above the configured one. */
  predicate ShouldLog(level: string, threshold: string) {
    LevelIndex(level) >= LevelIndex(threshold)
  }

  /** Errors always print; an unrecognised threshold prints everything; a recognised threshold
      suppresses unrecognised levels; raising a printed line's level keeps it printed. */
  lemma LogGate(level: string, higher: string, threshold: string)
    ensures ShouldLog("error", threshold)
    ensures threshold !in Levels ==> ShouldLog(level, threshold)
    ensures threshold in Levels && level !in Levels ==> !ShouldLog(level, threshold)
    ensures ShouldLog(level, threshold) && LevelIndex(higher) >= LevelIndex(level) ==> ShouldLog(higher, threshold)
  {
  }

  // ---------------------------------------------------------------------------
  // Selection: profit filter, then batch cap

  /** The candidates whose keeper fee reaches `minProfit`, in scan order. */
  function Profitable(cs: seq<Candidate>, minProfit: int): (r: seq<Candidate>)
    ensures |r| <= |cs|
    ensures forall c :: c in r <==> c in cs && KeeperFee(c.amount) >= minProfit
    ensures Sequences.IsSubsequence(r, cs)
    ensures forall c :: multiset(r)[c] == if KeeperFee(c.amount) >= minProfit then multiset(cs)[c] else 0
  {
    if cs == [] then []
    else
      var rest := Profitable(cs[1..], minProfit);
      assert cs == [cs[0]] + cs[1..];
      assert multiset(cs) == multiset([cs[0]]) + multiset(cs[1..]);
      if KeeperFee(cs[0].amount) >= minProfit then
        Sequences.SubsequenceKeep(rest, cs[0], cs[1..]);
        [cs[0]] + rest
      else
        Sequences.SubsequenceSkip(rest, cs[0], cs[1..]);
        rest
  }

  /** `slice(0, n)` for `n >= 0`: the first `n` elements, or all of them when fewer. */
  function Take(cs: seq<Candidate>, n: nat): (r: seq<Candidate>)
    ensures |r| == if |cs| <= n then |cs| else n
    ensures r <= cs
  {
    if |cs| <= n then cs else cs[..n]
  }

  /** The charges a cycle attempts: the first `batchSize` profitable candidates. */
  function Selection(due: seq<Candidate>, settings: Config.KeeperSettings): (r: seq<Candidate>)
    ensures |r| <= settings.batchSize && |r| <= |due|
    ensures forall c :: c in r ==> c in due && KeeperFee(c.amount) >= settings.minProfit
    ensures r <= Profitable(due, settings.minProfit)
    ensures var p := Profitable(due, settings.minProfit);
            |r| == if |p| <= settings.batchSize then |p| else settings.batchSize
  {
    Take(Profitable(due, settings.minProfit), settings.batchSize)
  }

  /** Two of plan #1's subscribers at 100000 (fee 200) and one of plan #2's at 1000000
      (fee 2000): with the default threshold and batch size only the second plan's charge is
      attempted. */
  lemma DefaultThresholdScenario(a: Principal, b: Principal, c: Principal)
    ensures Selection(
              [StacksClient.Candidate(a, 1, 100000), StacksClient.Candidate(b, 1, 100000), StacksClient.Candidate(c, 2, 1000000)],
              Config.KeeperSettings("key", 10, 10, 1000, 100))
            == [StacksClient.Candidate(c, 2, 1000000)]
  {
    var cs := [StacksClient.Candidate(a, 1, 100000), StacksClient.Candidate(b, 1, 100000), StacksClient.Candidate(c, 2, 1000000)];
    assert KeeperFee(100000) == 200;
    assert KeeperFee(1000000) == 2000;
    assert cs[1..][1..][1..] == [];
    assert Profitable(cs[1..][1..], 1000) == [cs[2]];
    assert Profitable(cs, 1000) == [cs[2]];
  }

  // ---------------------------------------------------------------------------
  // Submission loop

  /** One attempted charge and what `executeCharge` did with it. */
  datatype Attempt = Attempt(charge: Candidate, outcome: Result<TxId, StacksClient.ChargeError>)

  /** The number of attempts that returned a transaction id. */
  function Successes(attempts: seq<Attempt>): (n: nat)
    ensures n <= |attempts|
  {
    if attempts == [] then 0
    else Successes(attempts[..|attempts| - 1]) + (if attempts[|attempts| - 1].outcome.Success? then 1 else 0)
  }

  function Charges(attempts: seq<Attempt>): (cs: seq<Candidate>)
    ensures |cs| == |attempts| && forall i :: 0 <= i < |attempts| ==> cs[i] == attempts[i].charge
  {
    seq(|attempts|, i requires 0 <= i < |attempts| => attempts[i].charge)
  }

  /** What submitting `batch` in order yields: one attempt per charge, in batch order, each
      with the outcome `executeCharge` gives for that charge. */
  function Attempted(batch: seq<Candidate>, key: string, broadcast: Broadcaster): (attempts: seq<Attempt>)
    ensures Charges(attempts) == batch
  {
    seq(|batch|, i requires 0 <= i < |batch| =>
      Attempt(batch[i], StacksClient.ExecuteCharge(broadcast, batch[i].subscriber, batch[i].planId, key)))
  }

  /** Submits each charge in order, one at a time; a failed charge is recorded and the loop goes on. */
  method SubmitSequentially(batch: seq<Candidate>, key: string, broadcast: Broadcaster)
    returns (attempts: seq<Attempt>, executed: nat)
    ensures attempts == Attempted(batch, key, broadcast)
    ensures executed == Successes(attempts) && executed <= |batch|
  {
    attempts := [];
    executed := 0;
    var i := 0;
    while i < |batch|
      invariant 0 <= i <= |batch|
      invariant |attempts| == i
      invariant forall k :: 0 <= k < i ==> attempts[k].charge == batch[k]
      invariant forall k :: 0 <= k < i ==>
                  attempts[k].outcome == StacksClient.ExecuteCharge(broadcast, batch[k].subscriber, batch[k].planId, key)
      invariant executed == Successes(attempts)
    {
      var outcome := StacksClient.ExecuteCharge(broadcast, batch[i].subscriber, batch[i].planId, key);
      var before := attempts;
      attempts := attempts + [Attempt(batch[i], outcome)];
      assert attempts[..|attempts| - 1] == before;
      if outcome.Success? {
        executed := executed + 1;
      }
      i := i + 1;
    }
  }

  // ---------------------------------------------------------------------------
  // One keeper cycle

  /** How a cycle ended: skipped because one was already running, finished with nothing due,
      finished after attempting its selection, or aborted by a failed chain query. */
  datatype CycleEnd = Skipped | NoCharges | Completed(executed: nat) | Crashed(failed: StacksClient.Query)

  /** What a cycle that was not skipped has done, in terms of the chain and the broadcaster: the
      flag is clear again; it crashed exactly when the block-height fetch or a query the scan needs
      failed, naming an unanswered query; it found nothing exactly when the scan answered with no
      charges; otherwise it attempted exactly the selection, in order, and counts the successes. */
  predicate CycleDone(settings: Config.KeeperSettings, chain: ChainView, broadcast: Broadcaster,
                      runningAfter: bool, end: CycleEnd, attempts: seq<Attempt>)
  {
    && !runningAfter && !end.Skipped?
    && (end.Crashed? <==> chain.latestBlocks.Fault? || !StacksClient.ScanHealthy(chain, settings.maxPlans))
    && (end.NoCharges? <==> !end.Crashed? && StacksClient.FindDueCharges(chain, settings.maxPlans) == Success([]))
    && (end.Crashed? ==> attempts == [] && !StacksClient.Answered(chain, end.failed))
    && (end.NoCharges? ==> attempts == [])
    && (end.Completed? ==>
          && StacksClient.FindDueCharges(chain, settings.maxPlans).Success?
          && var due := StacksClient.FindDueCharges(chain, settings.maxPlans).value;
          && attempts == Attempted(Selection(due, settings), settings.privateKey, broadcast)
          && end.executed == Successes(attempts))
  }

  /** One tick. `running` is the single-flight flag on entry; `runningAfter` is the flag on exit. */
  method RunKeeperCycle(running: bool, settings: Config.KeeperSettings, chain: ChainView, broadcast: Broadcaster)
    returns (runningAfter: bool, end: CycleEnd, attempts: seq<Attempt>)
    ensures running ==> runningAfter && end == Skipped && attempts == []
    ensures !running ==> CycleDone(settings, chain, broadcast, runningAfter, end, attempts)
    ensures forall a :: a in attempts ==> KeeperFee(a.charge.amount) >= settings.minProfit
  {
    if running {
      return true, Skipped, [];
    }
    // isRunning = true; every exit below is the guaranteed-cleanup path back to false.
    var height := StacksClient.GetCurrentBlockHeight(chain);
    if height.Failure? {
      return false, Crashed(height.error), [];
    }
    var due := StacksClient.FindDueCharges(chain, settings.maxPlans);
    if due.Failure? {
      return false, Crashed(due.error), [];
    }
    if |due.value| == 0 {
      return false, NoCharges, [];
    }
    var batch := Selection(due.value, settings);
    var executed;
    attempts, executed := SubmitSequentially(batch, settings.privateKey, broadcast);
    forall a | a in attempts ensures KeeperFee(a.charge.amount) >= settings.minProfit {
      var i :| 0 <= i < |attempts| && attempts[i] == a;
      assert Charges(attempts)[i] == batch[i];
    }
    return false, Completed(executed), attempts;
  }

  // ---------------------------------------------------------------------------
  // Startup

  /** What starting the keeper does: exit with a status code, or run a first cycle at once and
      schedule the rest every `timerPeriodMs` milliseconds. */
  datatype Startup =
    | Exited(code: int)
    | Started(firstEnd: CycleEnd, firstAttempts: seq<Attempt>, runningAfter: bool, timerPeriodMs: nat)

  method StartKeeper(settings: Config.KeeperSettings, chain: ChainView, broadcast: Broadcaster)
    returns (s: Startup)
    ensures settings.privateKey == "" <==> s.Exited?
    ensures s.Exited? ==> s.code == 1
    ensures s.Started? ==> s.timerPeriodMs == settings.checkInterval * 60 * 1000
    ensures s.Started? ==> CycleDone(settings, chain, broadcast, s.runningAfter, s.firstEnd, s.firstAttempts)
  {
    if settings.privateKey == "" {
      return Exited(1);
    }
    var runningAfter, end, attempts := RunKeeperCycle(false, settings, chain, broadcast);
    return Started(end, attempts, runningAfter, settings.checkInterval * 60 * 1000);
  }
}

=== FILE: outcomes.dfy ===
/** Failure-carrying wrappers used across the model: `Option` for TypeScript's
    `null` / `undefined` results and `Result` for thrown errors. */
module Outcomes {

  /** A value that may be absent (TypeScript's `null` or `undefined`). */
  datatype Option<+T> = None | Some(value: T)

  /** The outcome of an operation that may throw: the value it returns, or the error it raises. */
  datatype Result<+T, +E> = Success(value: T) | Failure(error: E) {

    /** The returned value, or `default` when the operation raised. */
    function GetOr(default: T): T {
      match this
      case Success(v) => v
      case Failure(_) => default
    }
  }
}

=== FILE: sequences.dfy ===
/** List facts shared by the scanner and the keeper: the subsequence relation that filtering
    and scanning in order establish. */
module Sequences {

  /** `xs` is `ys` with some elements left out, order kept. */
  predicate IsSubsequence<T(==)>(xs: seq<T>, ys: seq<T>)
    decreases |ys|
  {
    if xs == [] then true
    else if ys == [] then false
    else (xs[0] == ys[0] && IsSubsequence(xs[1..], ys[1..])) || IsSubsequence(xs, ys[1..])
  }

  lemma SubsequenceSkip<T>(xs: seq<T>, y: T, ys: seq<T>)
    requires IsSubsequence(xs, ys)
    ensures IsSubsequence(xs, [y] + ys)
  {
    assert ([y] + ys)[1..] == ys;
  }

  lemma SubsequenceKeep<T>(xs: seq<T>, y: T, ys: seq<T>)
    requires IsSubsequence(xs, ys)
    ensures IsSubsequence([y] + xs, [y] + ys)
  {
    assert ([y] + ys)[1..] == ys;
    assert ([y] + xs)[1..] == xs;
  }

  /** A first element taken from the head of `ys` keeps the subsequence relation. */
  lemma SubsequenceLead<T>(xs: seq<T>, ys: seq<T>)
    requires |ys| > 0 && (xs == [] || xs == [ys[0]])
    ensures IsSubsequence(xs, ys)
  {
    if xs != [] {
      assert xs[1..] == [];
    }
  }
}

=== FILE: stacks_client.dfy ===
/** The keeper's chain client (backend/src/stacks-client.ts): reads that decode
    the contracts' JSON values and let every failure propagate, the single-charge
    submitter, and the due-charge scanner `findDueCharges`. This client has no
    `try`/`catch`: one failed query aborts the whole scan. */
module StacksClient {
  import opened Outcomes
  import opened Chain
  import Sequences

  // ---------------------------------------------------------------------------
  // Decoded records

  datatype Plan = Plan(
    id: int,
    merchant: Principal,
    amount: int,
    intervalBlocks: int,
    active: bool,
    subscriberCount: int)

  datatype Subscription = Subscription(
    subscriber: Principal,
    planId: int,
    active: bool,
    planAmount: int,
    planInterval: int)

  /** A charge the keeper may execute this cycle. */
  datatype Candidate = Candidate(subscriber: Principal, planId: int, amount: int)

  /** Every query this client can issue; a thrown error names the query that failed. */
  datatype Query =
    | BlockHeightQuery
    | TotalPlansQuery
    | PlanQuery(id: int)
    | SubscribersQuery(id: int)
    | DueQuery(subscriber: Principal, id: int)
    | SubscriptionQuery(subscriber: Principal, id: int)
    | BalanceQuery(user: Principal)

  /** The chain answered `q` (it did not fault). */
  predicate Answered(chain: ChainView, q: Query) {
    match q
    case BlockHeightQuery => chain.latestBlocks.Answer?
    case TotalPlansQuery => chain.totalPlans.Answer?
    case PlanQuery(id) => chain.plan(id).Answer?
    case SubscribersQuery(id) => chain.subscribers(id).Answer?
    case DueQuery(s, id) => chain.chargeDue(s, id).Answer?
    case SubscriptionQuery(s, id) => chain.subscription(s, id).Answer?
    case BalanceQuery(u) => chain.balance(u).Answer?
  }

  // ---------------------------------------------------------------------------
  // Decoding rules

  /** `results[0]?.height || 0`: a missing entry, a missing height and height 0 all read as 0. */
  function BlockHeightOf(blocks: seq<BlockEntry>): (h: int)
    ensures h == 0 <==> |blocks| == 0 || blocks[0].height.None? || blocks[0].height.value == 0
    ensures h != 0 ==> blocks[0].height == Some(h)
  {
    if |blocks| == 0 then 0
    else match blocks[0].height
      case Some(v) => if v != 0 then v else 0
      case None => 0
  }

  /** The plan record, tagged with the id it was fetched under; `none` reads as absent. */
  function DecodePlan(id: int, raw: Option<PlanFields>): (p: Option<Plan>)
    ensures p.Some? <==> raw.Some?
    ensures p.Some? ==> p.value.id == id && PlanFieldsOf(p.value) == raw.value
  {
    match raw
    case Some(f) => Some(Plan(id, f.merchant, f.amount, f.intervalBlocks, f.active, f.subscriberCount))
    case None => None
  }

  /** The fields a decoded plan was read from. */
  function PlanFieldsOf(p: Plan): PlanFields {
    PlanFields(p.merchant, p.amount, p.intervalBlocks, p.active, p.subscriberCount)
  }

  /** Anything that is not a list reads as no subscribers. */
  function DecodeSubscribers(v: ListValue): (subs: seq<Principal>)
    ensures v.NotAList? ==> subs == []
    ensures v.Items? ==> subs == v.items
  {
    match v
    case Items(xs) => xs
    case NotAList => []
  }

  /** Due only when the decoded value is exactly the boolean `true`. */
  function DecodeDue(v: BoolValue): (due: bool)
    ensures due <==> v == Flag(true)
  {
    match v
    case Flag(b) => b
    case NotABool => false
  }

  function DecodeSubscription(subscriber: Principal, planId: int, raw: Option<SubscriptionFields>): (s: Option<Subscription>)
    ensures s.Some? <==> raw.Some?
    ensures s.Some? ==> s.value.subscriber == subscriber && s.value.planId == planId
    ensures s.Some? ==> SubscriptionFields(s.value.planAmount, s.value.planInterval, s.value.active) == raw.value
  {
    match raw
    case Some(f) => Some(Subscription(subscriber, planId, f.active, f.planAmount, f.planInterval))
    case None => None
  }

  // ---------------------------------------------------------------------------
  // Propagating reads

  /** One read: the decoded answer, or a thrown error naming the query. */
  function Read<T, U>(reply: Reply<T>, q: Query, decode: T -> U): (r: Result<U, Query>)
    ensures r.Failure? <==> reply.Fault?
    ensures r.Failure? ==> r.error == q
    ensures r.Success? ==> r.value == decode(reply.value)
  {
    match reply
    case Answer(v) => Success(decode(v))
    case Fault => Failure(q)
  }

  function GetCurrentBlockHeight(chain: ChainView): (r: Result<int, Query>)
    ensures r.Failure? <==> !Answered(chain, BlockHeightQuery)
    ensures r.Failure? ==> r.error == BlockHeightQuery
    ensures r.Success? ==> r.value == BlockHeightOf(chain.latestBlocks.value)
  {
    Read(chain.latestBlocks, BlockHeightQuery, BlockHeightOf)
  }

  function GetTotalPlans(chain: ChainView): (r: Result<int, Query>)
    ensures r.Failure? <==> !Answered(chain, TotalPlansQuery)
    ensures r.Success? ==> chain.totalPlans == Answer(r.value)
  {
    Read(chain.totalPlans, TotalPlansQuery, (n: int) => n)
  }

  function GetPlan(chain: ChainView, id: int): (r: Result<Option<Plan>, Query>)
    ensures r.Failure? <==> !Answered(chain, PlanQuery(id))
    ensures r.Failure? ==> r.error == PlanQuery(id)
    ensures r.Success? ==> r.value == DecodePlan(id, chain.plan(id).value)
  {
    Read(chain.plan(id), PlanQuery(id), (raw: Option<PlanFields>) => DecodePlan(id, raw))
  }

  function GetPlanSubscribers(chain: ChainView, id: int): (r: Result<seq<Principal>, Query>)
    ensures r.Failure? <==> !Answered(chain, SubscribersQuery(id))
    ensures r.Failure? ==> r.error == SubscribersQuery(id)
    ensures r.Success? ==> r.value == DecodeSubscribers(chain.subscribers(id).value)
  {
    Read(chain.subscribers(id), SubscribersQuery(id), DecodeSubscribers)
  }

  function IsChargeDue(chain: ChainView, subscriber: Principal, id: int): (r: Result<bool, Query>)
    ensures r.Failure? <==> !Answered(chain, DueQuery(subscriber, id))
    ensures r.Success? ==> (r.value <==> chain.chargeDue(subscriber, id) == Answer(Flag(true)))
  {
    Read(chain.chargeDue(subscriber, id), DueQuery(subscriber, id), DecodeDue)
  }

  function GetSubscription(chain: ChainView, subscriber: Principal, id: int): (r: Result<Option<Subscription>, Query>)
    ensures r.Failure? <==> !Answered(chain, SubscriptionQuery(subscriber, id))
    ensures r.Failure? ==> r.error == SubscriptionQuery(subscriber, id)
    ensures r.Success? ==> r.value == DecodeSubscription(subscriber, id, chain.subscription(subscriber, id).value)
  {
    Read(chain.subscription(subscriber, id), SubscriptionQuery(subscriber, id),
         (raw: Option<SubscriptionFields>) => DecodeSubscription(subscriber, id, raw))
  }

  function GetVaultBalance(chain: ChainView, user: Principal): (r: Result<int, Query>)
    ensures r.Failure? <==> !Answered(chain, BalanceQuery(user))
    ensures r.Success? ==> chain.balance(user) == Answer(r.value)
  {
    Read(chain.balance(user), BalanceQuery(user), (n: int) => n)
  }

  // ---------------------------------------------------------------------------
  // Single-charge submission

  /** Why `executeCharge` threw. */
  datatype ChargeError = BroadcastFailed(reason: string) | SigningFailed

  /** The transaction fee `executeCharge` pins, in micro-STX. */
  const ChargeFee: nat := 10000

  /** Builds, signs and broadcasts `execute-charge`; a broadcast error payload is thrown. */
  function ExecuteCharge(broadcast: Broadcaster, subscriber: Principal, planId: int, key: string): (r: Result<TxId, ChargeError>)
    ensures r.Success? <==> broadcast(ChargeCall(subscriber, planId, key, Some(ChargeFee))).Accepted?
    ensures r.Success? ==> broadcast(ChargeCall(subscriber, planId, key, Some(ChargeFee))) == Accepted(r.value)
    ensures broadcast(ChargeCall(subscriber, planId, key, Some(ChargeFee))).Rejected? ==>
              r == Failure(BroadcastFailed(broadcast(ChargeCall(subscriber, planId, key, Some(ChargeFee))).reason))
  {
    match broadcast(ChargeCall(subscriber, planId, key, Some(ChargeFee)))
    case Accepted(txid) => Success(txid)
    case Rejected(reason) => Failure(BroadcastFailed(reason))
    case BuildFailed => Failure(SigningFailed)
  }

  // ---------------------------------------------------------------------------
  // The due-charge scanner: what the chain says, independently of the scan

  /** Plan `id` exists, is active and has subscribers. */
  predicate PlanRetained(chain: ChainView, id: int) {
    match chain.plan(id)
    case Answer(Some(f)) => f.active && f.subscriberCount != 0
    case _ => false
  }

  /** The subscriber list the chain reports for plan `id` (empty when it is not a list or faults). */
  function Roster(chain: ChainView, id: int): seq<Principal> {
    match chain.subscribers(id)
    case Answer(Items(xs)) => xs
    case _ => []
  }

  /** The chain reports the charge of `subscriber` on plan `id` as due, as the boolean `true`. */
  predicate DueNow(chain: ChainView, subscriber: Principal, id: int) {
    chain.chargeDue(subscriber, id) == Answer(Flag(true))
  }

  /** `c` is due, its subscription is present and active, and it charges the subscription's recorded amount. */
  predicate Qualifies(chain: ChainView, c: Candidate) {
    && DueNow(chain, c.subscriber, c.planId)
    && match chain.subscription(c.subscriber, c.planId)
       case Answer(Some(f)) => f.active && c.amount == f.planAmount
       case _ => false
  }

  /** `c` is a charge the scan over plans `lo..hi` must report. */
  predicate Eligible(chain: ChainView, lo: int, hi: int, c: Candidate) {
    && lo <= c.planId <= hi
    && PlanRetained(chain, c.planId)
    && c.subscriber in Roster(chain, c.planId)
    && Qualifies(chain, c)
  }

  predicate SubscriberHealthy(chain: ChainView, subscriber: Principal, id: int) {
    chain.chargeDue(subscriber, id).Answer? && (DueNow(chain, subscriber, id) ==> chain.subscription(subscriber, id).Answer?)
  }

  predicate RosterHealthy(chain: ChainView, id: int, subs: seq<Principal>) {
    forall i :: 0 <= i < |subs| ==> SubscriberHealthy(chain, subs[i], id)
  }

  /** Every query the scan makes about plan `id` is answered. */
  predicate PlanHealthy(chain: ChainView, id: int) {
    && chain.plan(id).Answer?
    && (PlanRetained(chain, id) ==> chain.subscribers(id).Answer? && RosterHealthy(chain, id, Roster(chain, id)))
  }

  predicate PlansHealthy(chain: ChainView, lo: int, hi: int) {
    forall id :: lo <= id <= hi ==> PlanHealthy(chain, id)
  }

  /** `Math.min(totalPlans, maxPlans)`: the last plan id scanned. */
  function ScanBound(total: int, maxPlans: nat): (b: int)
    ensures b <= total && b <= maxPlans && (b == total || b == maxPlans)
  {
    if total < maxPlans then total else maxPlans
  }

  /** Every query a scan with cap `maxPlans` makes is answered. */
  predicate ScanHealthy(chain: ChainView, maxPlans: nat) {
    chain.totalPlans.Answer? && PlansHealthy(chain, 1, ScanBound(chain.totalPlans.value, maxPlans))
  }

  /** Total length of the subscriber lists of the retained plans among `lo..hi`. */
  function RosterTotal(chain: ChainView, lo: int, hi: int): nat
    decreases hi - lo + 1
  {
    if lo > hi then 0
    else (if PlanRetained(chain, lo) then |Roster(chain, lo)| else 0) + RosterTotal(chain, lo + 1, hi)
  }

  /** The charge of subscriber `s` on plan `id` when it qualifies: due, with a present and active
      subscription, at that subscription's recorded amount; nothing otherwise. */
  function ChargeOf(chain: ChainView, s: Principal, id: int): seq<Candidate> {
    if !DueNow(chain, s, id) then []
    else
      match chain.subscription(s, id)
      case Answer(Some(f)) => if f.active then [Candidate(s, id, f.planAmount)] else []
      case _ => []
  }

  /** The qualifying charges of the listed subscribers `subs` of plan `id`: one per listing, in
      list order. */
  function RosterDue(chain: ChainView, id: int, subs: seq<Principal>): seq<Candidate>
    decreases |subs|
  {
    if subs == [] then [] else ChargeOf(chain, subs[0], id) + RosterDue(chain, id, subs[1..])
  }

  /** The charges a scan of plans `lo..hi` must return, as a list: plans in ascending id order,
      and within each retained plan its subscriber list's qualifying charges in list order. */
  function DueList(chain: ChainView, lo: int, hi: int): seq<Candidate>
    decreases hi - lo + 1
  {
    if lo > hi then []
    else (if PlanRetained(chain, lo) then RosterDue(chain, lo, Roster(chain, lo)) else []) + DueList(chain, lo + 1, hi)
  }

  lemma ChargeOfMembers(chain: ChainView, s: Principal, id: int)
    ensures forall c :: c in ChargeOf(chain, s, id) <==> c.subscriber == s && c.planId == id && Qualifies(chain, c)
  {
  }

  lemma {:induction false} RosterDueMembers(chain: ChainView, id: int, subs: seq<Principal>)
    ensures forall c :: c in RosterDue(chain, id, subs) <==> c.planId == id && c.subscriber in subs && Qualifies(chain, c)
    decreases |subs|
  {
    if subs != [] {
      ChargeOfMembers(chain, subs[0], id);
      RosterDueMembers(chain, id, subs[1..]);
      assert subs == [subs[0]] + subs[1..];
    }
  }

  /** The reference list holds exactly the eligible charges. */
  lemma {:induction false} DueListEligible(chain: ChainView, lo: int, hi: int)
    ensures forall c :: c in DueList(chain, lo, hi) <==> Eligible(chain, lo, hi, c)
    decreases hi - lo + 1
  {
    if lo <= hi {
      RosterDueMembers(chain, lo, Roster(chain, lo));
      DueListEligible(chain, lo + 1, hi);
    }
  }

  /** A query the scan of plans `lo..hi` has a reason to make: plans in range, subscriber
      lists of retained plans, due-ness of listed subscribers, subscriptions of due ones. */
  predicate Justified(chain: ChainView, lo: int, hi: int, q: Query) {
    match q
    case PlanQuery(id) => lo <= id <= hi
    case SubscribersQuery(id) => lo <= id <= hi && PlanRetained(chain, id)
    case DueQuery(s, id) => lo <= id <= hi && PlanRetained(chain, id) && s in Roster(chain, id)
    case SubscriptionQuery(s, id) =>
      lo <= id <= hi && PlanRetained(chain, id) && s in Roster(chain, id) && DueNow(chain, s, id)
    case _ => false
  }

  /** The queries the scan must make for subscriber `s` of plan `id`: the due check, then the
      subscription fetch when the charge is due. */
  function SubscriberQueries(chain: ChainView, s: Principal, id: int): seq<Query> {
    [DueQuery(s, id)] + if DueNow(chain, s, id) then [SubscriptionQuery(s, id)] else []
  }

  /** The queries the scan must make for the listed subscribers `subs` of plan `id`, in list order. */
  function RosterQueries(chain: ChainView, id: int, subs: seq<Principal>): seq<Query>
    decreases |subs|
  {
    if subs == [] then [] else SubscriberQueries(chain, subs[0], id) + RosterQueries(chain, id, subs[1..])
  }

  /** The queries the scan must make for plan `id`: the plan, and for a retained plan its subscriber
      list and then its roster's queries. */
  function PlanQueries(chain: ChainView, id: int): seq<Query> {
    [PlanQuery(id)] + if PlanRetained(chain, id) then [SubscribersQuery(id)] + RosterQueries(chain, id, Roster(chain, id)) else []
  }

  /** The queries the scan of plans `lo..hi` must make, plan by plan in ascending id order. */
  function PlansQueries(chain: ChainView, lo: int, hi: int): seq<Query>
    decreases hi - lo + 1
  {
    if lo > hi then [] else PlanQueries(chain, lo) + PlansQueries(chain, lo + 1, hi)
  }

  lemma {:induction false} RosterQueriesMembers(chain: ChainView, id: int, subs: seq<Principal>)
    ensures forall q :: q in RosterQueries(chain, id, subs) <==> RosterQuery(chain, id, subs, q)
    decreases |subs|
  {
    if subs != [] {
      RosterQueriesMembers(chain, id, subs[1..]);
      assert subs == [subs[0]] + subs[1..];
    }
  }

  /** The queries the scan must make are exactly the queries it has a reason to make. */
  lemma {:induction false} PlansQueriesJustified(chain: ChainView, lo: int, hi: int)
    ensures forall q :: q in PlansQueries(chain, lo, hi) <==> Justified(chain, lo, hi, q)
    decreases hi - lo + 1
  {
    if lo <= hi {
      RosterQueriesMembers(chain, lo, Roster(chain, lo));
      PlansQueriesJustified(chain, lo + 1, hi);
    }
  }

  /** The ids `lo, lo+1, ..., hi` in ascending order. */
  function Range(lo: int, hi: int): (r: seq<int>)
    ensures |r| == if lo <= hi then hi - lo + 1 else 0
    ensures forall i :: 0 <= i < |r| ==> r[i] == lo + i
    decreases hi - lo + 1
  {
    if lo > hi then [] else [lo] + Range(lo + 1, hi)
  }

  /** The plan ids of the `PlanQuery`s among `qs`, in issue order. */
  function PlanIds(qs: seq<Query>): seq<int> {
    if qs == [] then []
    else (if qs[0].PlanQuery? then [qs[0].id] else []) + PlanIds(qs[1..])
  }

  lemma {:induction false} PlanIdsAppend(a: seq<Query>, b: seq<Query>)
    ensures PlanIds(a + b) == PlanIds(a) + PlanIds(b)
  {
    if a == [] {
      assert a + b == b;
    } else {
      assert (a + b)[0] == a[0];
      assert (a + b)[1..] == a[1..] + b;
      PlanIdsAppend(a[1..], b);
      var head := if a[0].PlanQuery? then [a[0].id] else [];
      assert PlanIds(a + b) == head + (PlanIds(a[1..]) + PlanIds(b));
      assert PlanIds(a) == head + PlanIds(a[1..]);
    }
  }

  lemma {:induction false} PlanIdsNone(qs: seq<Query>)
    requires forall q :: q in qs ==> !q.PlanQuery?
    ensures PlanIds(qs) == []
  {
    if qs != [] {
      assert qs[0] in qs;
      PlanIdsNone(qs[1..]);
    }
  }

  /** The subscribers of a list of candidates, in order. */
  function Subscribers(cs: seq<Candidate>): (r: seq<Principal>)
    ensures |r| == |cs| && forall i :: 0 <= i < |cs| ==> r[i] == cs[i].subscriber
  {
    seq(|cs|, i requires 0 <= i < |cs| => cs[i].subscriber)
  }

  // ---------------------------------------------------------------------------
  // The due-charge scanner: the scan itself

  /** What a (possibly aborted) scan produced: the candidates found so far, the
      queries issued in order, and whether a failed query aborted it. */
  datatype Scan = Scan(found: seq<Candidate>, issued: seq<Query>, aborted: bool)

  /** Every issued query was answered except the last one of an aborted scan, which faulted. */
  predicate FaultOnlyAtEnd(chain: ChainView, t: Scan) {
    && (t.aborted ==> |t.issued| > 0 && !Answered(chain, t.issued[|t.issued| - 1]))
    && forall i :: 0 <= i < |t.issued| && !(t.aborted && i == |t.issued| - 1) ==> Answered(chain, t.issued[i])
  }

  /** One subscriber of plan `id`: ask whether the charge is due, and only if so fetch the subscription. */
  function ScanSubscriber(chain: ChainView, id: int, s: Principal): (r: Scan)
    ensures FaultOnlyAtEnd(chain, r)
    ensures r.aborted <==> !SubscriberHealthy(chain, s, id)
    ensures |r.found| <= 1
    ensures forall c :: c in r.found <==> c.subscriber == s && c.planId == id && Qualifies(chain, c)
    ensures forall q :: q in r.issued ==> q == DueQuery(s, id) || (q == SubscriptionQuery(s, id) && DueNow(chain, s, id))
  {
    match IsChargeDue(chain, s, id)
    case Failure(_) => Scan([], [DueQuery(s, id)], true)
    case Success(due) =>
      if !due then Scan([], [DueQuery(s, id)], false)
      else
        match GetSubscription(chain, s, id)
        case Failure(_) => Scan([], [DueQuery(s, id), SubscriptionQuery(s, id)], true)
        case Success(sub) =>
          if sub.Some? && sub.value.active then
            Scan([Candidate(s, id, sub.value.planAmount)], [DueQuery(s, id), SubscriptionQuery(s, id)], false)
          else
            Scan([], [DueQuery(s, id), SubscriptionQuery(s, id)], false)
  }

  /** The subscribers of plan `id`, in list order, stopping at the first failed query. */
  function ScanSubscribers(chain: ChainView, id: int, subs: seq<Principal>): (r: Scan)
    ensures |r.found| <= |subs|
    decreases |subs|
  {
    if subs == [] then Scan([], [], false)
    else
      var h := ScanSubscriber(chain, id, subs[0]);
      if h.aborted then h
      else
        var t := ScanSubscribers(chain, id, subs[1..]);
        Scan(h.found + t.found, h.issued + t.issued, t.aborted)
  }

  /** The queries a roster scan of plan `id` may issue. */
  predicate RosterQuery(chain: ChainView, id: int, subs: seq<Principal>, q: Query) {
    match q
    case DueQuery(s, i) => i == id && s in subs
    case SubscriptionQuery(s, i) => i == id && s in subs && DueNow(chain, s, id)
    case _ => false
  }

  /** A roster scan aborts exactly when some query it needs faults, and then at that query. */
  lemma {:induction false} ScanSubscribersFaults(chain: ChainView, id: int, subs: seq<Principal>)
    ensures FaultOnlyAtEnd(chain, ScanSubscribers(chain, id, subs))
    ensures ScanSubscribers(chain, id, subs).aborted <==> !RosterHealthy(chain, id, subs)
    decreases |subs|
  {
    if subs != [] {
      var h := ScanSubscriber(chain, id, subs[0]);
      if !h.aborted {
        ScanSubscribersFaults(chain, id, subs[1..]);
        assert RosterHealthy(chain, id, subs) <==> RosterHealthy(chain, id, subs[1..]) by {
          forall i | 0 <= i < |subs[1..]| ensures subs[1..][i] == subs[i + 1] { }
        }
      }
    }
  }

  /** A roster scan reports subscribers in list order, each listing at most once. */
  lemma {:induction false} ScanSubscribersInOrder(chain: ChainView, id: int, subs: seq<Principal>)
    ensures Sequences.IsSubsequence(Subscribers(ScanSubscribers(chain, id, subs).found), subs)
    decreases |subs|
  {
    if subs != [] {
      var h := ScanSubscriber(chain, id, subs[0]);
      if h.aborted {
        Sequences.SubsequenceLead(Subscribers(h.found), subs);
      } else {
        ScanSubscribersInOrder(chain, id, subs[1..]);
        var t := ScanSubscribers(chain, id, subs[1..]);
        assert Subscribers(h.found + t.found) == Subscribers(h.found) + Subscribers(t.found);
        if h.found == [] {
          assert h.found + t.found == t.found;
          Sequences.SubsequenceSkip(Subscribers(t.found), subs[0], subs[1..]);
        } else {
          assert Subscribers(h.found) == [subs[0]];
          Sequences.SubsequenceKeep(Subscribers(t.found), subs[0], subs[1..]);
        }
      }
    }
  }

  /** A roster scan, aborted or not, reports only qualifying charges of listed subscribers. */
  lemma {:induction false} ScanSubscribersSound(chain: ChainView, id: int, subs: seq<Principal>)
    ensures forall c :: c in ScanSubscribers(chain, id, subs).found ==>
              c.planId == id && c.subscriber in subs && Qualifies(chain, c)
    decreases |subs|
  {
    if subs != [] {
      ChargeOfMembers(chain, subs[0], id);
      ScanSubscribersSound(chain, id, subs[1..]);
      assert subs == [subs[0]] + subs[1..];
    }
  }

  /** A roster scan reports due, active subscriptions of listed subscribers only, in list order;
      when it does not abort it reports every one of them. */
  lemma ScanSubscribersFound(chain: ChainView, id: int, subs: seq<Principal>)
    ensures var r := ScanSubscribers(chain, id, subs);
            && Sequences.IsSubsequence(Subscribers(r.found), subs)
            && (forall c :: c in r.found ==> c.planId == id && c.subscriber in subs && Qualifies(chain, c))
            && (!r.aborted ==> forall c: Candidate :: c.planId == id && c.subscriber in subs && Qualifies(chain, c) ==> c in r.found)
  {
    ScanSubscribersInOrder(chain, id, subs);
    ScanSubscribersSound(chain, id, subs);
    ScanSubscribersExact(chain, id, subs);
    RosterDueMembers(chain, id, subs);
  }

  /** A roster scan only asks about listed subscribers, and fetches a subscription only when due. */
  lemma {:induction false} ScanSubscribersQueries(chain: ChainView, id: int, subs: seq<Principal>)
    ensures forall q :: q in ScanSubscribers(chain, id, subs).issued ==> RosterQuery(chain, id, subs, q)
    ensures !ScanSubscribers(chain, id, subs).aborted ==> ScanSubscribers(chain, id, subs).issued == RosterQueries(chain, id, subs)
    decreases |subs|
  {
    ScanSubscribersQueriesExact(chain, id, subs);
    if subs != [] {
      var h := ScanSubscriber(chain, id, subs[0]);
      if !h.aborted {
        ScanSubscribersQueries(chain, id, subs[1..]);
      }
    }
  }

  /** An unaborted roster scan makes exactly the roster's required queries, in list order. */
  lemma {:induction false} ScanSubscribersQueriesExact(chain: ChainView, id: int, subs: seq<Principal>)
    ensures !ScanSubscribers(chain, id, subs).aborted ==> ScanSubscribers(chain, id, subs).issued == RosterQueries(chain, id, subs)
    decreases |subs|
  {
    if subs != [] && !ScanSubscriber(chain, id, subs[0]).aborted {
      ScanSubscribersQueriesExact(chain, id, subs[1..]);
    }
  }

  /** Answered queries issued before a scan keep its faults at the end. */
  lemma FaultsAfterPrefix(chain: ChainView, pre: seq<Query>, t: Scan)
    requires forall i :: 0 <= i < |pre| ==> Answered(chain, pre[i])
    requires FaultOnlyAtEnd(chain, t)
    ensures FaultOnlyAtEnd(chain, Scan(t.found, pre + t.issued, t.aborted))
  {
    var issued := pre + t.issued;
    forall i | 0 <= i < |issued| && !(t.aborted && i == |issued| - 1)
      ensures Answered(chain, issued[i])
    {
      if i >= |pre| {
        assert issued[i] == t.issued[i - |pre|];
      }
    }
  }

  /** Plan `id`: fetch it; skip it when absent, inactive or without subscribers; otherwise scan its roster. */
  function ScanPlan(chain: ChainView, id: int): Scan {
    match GetPlan(chain, id)
    case Failure(_) => Scan([], [PlanQuery(id)], true)
    case Success(plan) =>
      if plan.None? || !plan.value.active || plan.value.subscriberCount == 0 then
        Scan([], [PlanQuery(id)], false)
      else
        match GetPlanSubscribers(chain, id)
        case Failure(_) => Scan([], [PlanQuery(id), SubscribersQuery(id)], true)
        case Success(subs) =>
          var t := ScanSubscribers(chain, id, subs);
          Scan(t.found, [PlanQuery(id), SubscribersQuery(id)] + t.issued, t.aborted)
  }

  /** An unaborted plan scan makes exactly the plan's required queries, in order. */
  lemma ScanPlanQueriesExact(chain: ChainView, id: int)
    ensures !ScanPlan(chain, id).aborted ==> ScanPlan(chain, id).issued == PlanQueries(chain, id)
  {
    if PlanRetained(chain, id) && chain.subscribers(id).Answer? {
      ScanSubscribersQueries(chain, id, Roster(chain, id));
    }
  }

  /** Everything the scan of one plan does, stated against the chain. */
  lemma ScanPlanFacts(chain: ChainView, id: int)
    ensures var r := ScanPlan(chain, id);
            && FaultOnlyAtEnd(chain, r)
            && (r.aborted <==> !PlanHealthy(chain, id))
            && (forall c :: c in r.found ==> Eligible(chain, id, id, c))
            && (!r.aborted ==> forall c: Candidate :: Eligible(chain, id, id, c) ==> c in r.found)
            && Sequences.IsSubsequence(Subscribers(r.found), Roster(chain, id))
            && |r.found| <= (if PlanRetained(chain, id) then |Roster(chain, id)| else 0)
            && (forall q :: q in r.issued ==> Justified(chain, id, id, q))
            && PlanIds(r.issued) == [id]
            && (!PlanRetained(chain, id) ==> r.found == [] && r.issued == [PlanQuery(id)])
            && (!r.aborted ==> r.issued == PlanQueries(chain, id))
  {
    ScanPlanOutcome(chain, id);
    ScanPlanIssued(chain, id);
    ScanPlanQueriesExact(chain, id);
  }

  /** The faults and candidates of one plan's scan. */
  lemma ScanPlanOutcome(chain: ChainView, id: int)
    ensures var r := ScanPlan(chain, id);
            && FaultOnlyAtEnd(chain, r)
            && (r.aborted <==> !PlanHealthy(chain, id))
            && (forall c :: c in r.found ==> Eligible(chain, id, id, c))
            && (!r.aborted ==> forall c: Candidate :: Eligible(chain, id, id, c) ==> c in r.found)
            && Sequences.IsSubsequence(Subscribers(r.found), Roster(chain, id))
            && |r.found| <= (if PlanRetained(chain, id) then |Roster(chain, id)| else 0)
            && (!PlanRetained(chain, id) ==> r.found == [] && r.issued == [PlanQuery(id)])
  {
    if PlanRetained(chain, id) && chain.subscribers(id).Answer? {
      var subs := Roster(chain, id);
      var t := ScanSubscribers(chain, id, subs);
      ScanSubscribersFaults(chain, id, subs);
      ScanSubscribersFound(chain, id, subs);
      FaultsAfterPrefix(chain, [PlanQuery(id), SubscribersQuery(id)], t);
    }
  }

  /** The queries of one plan's scan: all with a reason, and the plan id queried once. */
  lemma ScanPlanIssued(chain: ChainView, id: int)
    ensures var r := ScanPlan(chain, id);
            && (forall q :: q in r.issued ==> Justified(chain, id, id, q))
            && PlanIds(r.issued) == [id]
  {
    var r := ScanPlan(chain, id);
    if PlanRetained(chain, id) && chain.subscribers(id).Answer? {
      var subs := Roster(chain, id);
      var t := ScanSubscribers(chain, id, subs);
      ScanSubscribersQueries(chain, id, subs);
      forall q | q in r.issued ensures Justified(chain, id, id, q) {
        if q in t.issued {
          assert RosterQuery(chain, id, subs, q);
        }
      }
      forall q | q in t.issued ensures !q.PlanQuery? {
        assert RosterQuery(chain, id, subs, q);
      }
      PlanIdsNone(t.issued);
      PlanIdsAppend([PlanQuery(id), SubscribersQuery(id)], t.issued);
      assert PlanIds([PlanQuery(id), SubscribersQuery(id)]) == [id] by {
        assert [PlanQuery(id), SubscribersQuery(id)][1..] == [SubscribersQuery(id)];
        assert [SubscribersQuery(id)][1..] == [];
      }
    } else {
      assert PlanIds([PlanQuery(id)]) == [id] by {
        assert [PlanQuery(id)][1..] == [];
      }
      if PlanRetained(chain, id) {
        assert r.issued == [PlanQuery(id), SubscribersQuery(id)];
        assert PlanIds(r.issued) == [id] by {
          assert r.issued[1..] == [SubscribersQuery(id)];
          assert [SubscribersQuery(id)][1..] == [];
        }
      }
    }
  }

  /** Plans `lo..hi` in ascending id order, stopping at the first failed query. */
  function ScanPlans(chain: ChainView, lo: int, hi: int): (r: Scan)
    decreases hi - lo + 1
  {
    if lo > hi then Scan([], [], false)
    else
      var h := ScanPlan(chain, lo);
      if h.aborted then h
      else
        var t := ScanPlans(chain, lo + 1, hi);
        Scan(h.found + t.found, h.issued + t.issued, t.aborted)
  }

  /** A scan of plans `lo..hi` aborts exactly when some query it needs faults, and then at that query. */
  lemma {:induction false} ScanPlansFaults(chain: ChainView, lo: int, hi: int)
    ensures FaultOnlyAtEnd(chain, ScanPlans(chain, lo, hi))
    ensures ScanPlans(chain, lo, hi).aborted <==> !PlansHealthy(chain, lo, hi)
    decreases hi - lo + 1
  {
    if lo <= hi {
      ScanPlanFacts(chain, lo);
      var h := ScanPlan(chain, lo);
      if !h.aborted {
        ScanPlansFaults(chain, lo + 1, hi);
        var t := ScanPlans(chain, lo + 1, hi);
        FaultsAfterPrefix(chain, h.issued, t);
        assert PlansHealthy(chain, lo, hi) <==> PlansHealthy(chain, lo + 1, hi);
      }
    }
  }

  /** A scan of plans `lo..hi` reports eligible charges only, at most one per listed subscriber of
      a retained plan; when it does not abort it reports all of them. */
  lemma {:induction false} ScanPlansFound(chain: ChainView, lo: int, hi: int)
    ensures var r := ScanPlans(chain, lo, hi);
            && (forall c :: c in r.found ==> Eligible(chain, lo, hi, c))
            && (!r.aborted ==> forall c: Candidate :: Eligible(chain, lo, hi, c) ==> c in r.found)
            && |r.found| <= RosterTotal(chain, lo, hi)
    decreases hi - lo + 1
  {
    if lo <= hi {
      ScanPlanFacts(chain, lo);
      if !ScanPlan(chain, lo).aborted {
        ScanPlansFound(chain, lo + 1, hi);
      }
    }
  }

  /** An unaborted subscriber scan finds exactly the subscriber's qualifying charge. */
  lemma ScanSubscriberExact(chain: ChainView, id: int, s: Principal)
    ensures !ScanSubscriber(chain, id, s).aborted ==> ScanSubscriber(chain, id, s).found == ChargeOf(chain, s, id)
  {
  }

  /** An unaborted roster scan finds exactly the roster's qualifying charges, one per listing, in list order. */
  lemma {:induction false} ScanSubscribersExact(chain: ChainView, id: int, subs: seq<Principal>)
    ensures !ScanSubscribers(chain, id, subs).aborted ==> ScanSubscribers(chain, id, subs).found == RosterDue(chain, id, subs)
    decreases |subs|
  {
    if subs != [] {
      ScanSubscriberExact(chain, id, subs[0]);
      if !ScanSubscriber(chain, id, subs[0]).aborted {
        ScanSubscribersExact(chain, id, subs[1..]);
      }
    }
  }

  /** An unaborted plan scan finds exactly the plan's part of the reference list. */
  lemma ScanPlanExact(chain: ChainView, id: int)
    ensures !ScanPlan(chain, id).aborted ==>
              ScanPlan(chain, id).found == if PlanRetained(chain, id) then RosterDue(chain, id, Roster(chain, id)) else []
  {
    if PlanRetained(chain, id) && chain.subscribers(id).Answer? {
      ScanSubscribersExact(chain, id, Roster(chain, id));
    }
  }

  /** An unaborted scan of plans `lo..hi` finds exactly the reference list: order and multiplicity included. */
  lemma {:induction false} ScanPlansExact(chain: ChainView, lo: int, hi: int)
    ensures !ScanPlans(chain, lo, hi).aborted ==> ScanPlans(chain, lo, hi).found == DueList(chain, lo, hi)
    decreases hi - lo + 1
  {
    if lo <= hi {
      ScanPlanExact(chain, lo);
      if !ScanPlan(chain, lo).aborted {
        ScanPlansExact(chain, lo + 1, hi);
      }
    }
  }

  lemma ScanPlansInRange(chain: ChainView, lo: int, hi: int)
    ensures forall c :: c in ScanPlans(chain, lo, hi).found ==> lo <= c.planId <= hi
  {
    ScanPlansFound(chain, lo, hi);
  }

  lemma ScanPlanSameId(chain: ChainView, id: int)
    ensures forall c :: c in ScanPlan(chain, id).found ==> c.planId == id
  {
    ScanPlanFacts(chain, id);
  }

  /** Candidates listed in ascending plan-id order. */
  predicate SortedByPlan(cs: seq<Candidate>) {
    forall i, j :: 0 <= i < j < |cs| ==> cs[i].planId <= cs[j].planId
  }

  lemma SortedAppend(a: seq<Candidate>, b: seq<Candidate>, id: int)
    requires forall c :: c in a ==> c.planId == id
    requires forall c :: c in b ==> c.planId > id
    requires SortedByPlan(b)
    ensures SortedByPlan(a + b)
  {
    var ab := a + b;
    forall i, j | 0 <= i < j < |ab| ensures ab[i].planId <= ab[j].planId {
      if j < |a| {
        assert ab[i] in a && ab[j] in a;
      } else if i < |a| {
        assert ab[i] in a;
        assert ab[j] == b[j - |a|];
      } else {
        assert ab[i] == b[i - |a|] && ab[j] == b[j - |a|];
      }
    }
  }

  /** A scan of plans `lo..hi` reports charges in ascending plan-id order. */
  lemma {:induction false} ScanPlansOrdered(chain: ChainView, lo: int, hi: int)
    ensures SortedByPlan(ScanPlans(chain, lo, hi).found)
    decreases hi - lo + 1
  {
    if lo <= hi {
      ScanPlanSameId(chain, lo);
      var h := ScanPlan(chain, lo);
      if !h.aborted {
        ScanPlansOrdered(chain, lo + 1, hi);
        ScanPlansInRange(chain, lo + 1, hi);
        SortedAppend(h.found, ScanPlans(chain, lo + 1, hi).found, lo);
      } else {
        SortedAppend(h.found, [], lo);
        assert h.found + [] == h.found;
      }
    }
  }

  lemma JustifiedWiden(chain: ChainView, lo: int, hi: int, lo': int, hi': int, q: Query)
    requires Justified(chain, lo, hi, q)
    requires lo' <= lo && hi <= hi'
    ensures Justified(chain, lo', hi', q)
  {
  }

  /** A scan of plans `lo..hi` queries plans in ascending order from `lo`, all of them unless it
      aborts, and makes only queries it has a reason to make. */
  lemma {:induction false} ScanPlansQueries(chain: ChainView, lo: int, hi: int)
    ensures var r := ScanPlans(chain, lo, hi);
            && (forall q :: q in r.issued ==> Justified(chain, lo, hi, q))
            && PlanIds(r.issued) <= Range(lo, hi)
            && (!r.aborted ==> PlanIds(r.issued) == Range(lo, hi) && r.issued == PlansQueries(chain, lo, hi))
    decreases hi - lo + 1
  {
    if lo <= hi {
      ScanPlanFacts(chain, lo);
      var h := ScanPlan(chain, lo);
      assert Range(lo, hi) == [lo] + Range(lo + 1, hi);
      forall q | q in h.issued ensures Justified(chain, lo, hi, q) {
        JustifiedWiden(chain, lo, lo, lo, hi, q);
      }
      if !h.aborted {
        ScanPlansQueries(chain, lo + 1, hi);
        var t := ScanPlans(chain, lo + 1, hi);
        forall q | q in t.issued ensures Justified(chain, lo, hi, q) {
          JustifiedWiden(chain, lo + 1, hi, lo, hi, q);
        }
        PlanIdsAppend(h.issued, t.issued);
      }
    }
  }

  /** `findDueCharges`' scan: the plan count, then plans `1..min(totalPlans, maxPlans)`. */
  function ScanAll(chain: ChainView, maxPlans: nat): Scan {
    match GetTotalPlans(chain)
    case Failure(_) => Scan([], [TotalPlansQuery], true)
    case Success(total) =>
      var t := ScanPlans(chain, 1, ScanBound(total, maxPlans));
      Scan(t.found, [TotalPlansQuery] + t.issued, t.aborted)
  }

  /** The queries `findDueCharges` issues: the plan count first, then plan ids ascending from 1 up
      to the bound (none when the bound is below 1), each query one the scan has a reason to make;
      every query but the last of an aborted scan is answered. */
  lemma ScanAllQueries(chain: ChainView, maxPlans: nat)
    ensures var r := ScanAll(chain, maxPlans);
            && FaultOnlyAtEnd(chain, r)
            && |r.issued| > 0 && r.issued[0] == TotalPlansQuery
            && (chain.totalPlans.Fault? ==> r.issued == [TotalPlansQuery] && r.aborted)
            && (chain.totalPlans.Answer? ==>
                  var bound := ScanBound(chain.totalPlans.value, maxPlans);
                  && (forall q :: q in r.issued[1..] ==> Justified(chain, 1, bound, q))
                  && PlanIds(r.issued) <= Range(1, bound)
                  && (!r.aborted ==> PlanIds(r.issued) == Range(1, bound))
                  && (!r.aborted ==> r.issued == [TotalPlansQuery] + PlansQueries(chain, 1, bound))
                  && (bound < 1 ==> PlanIds(r.issued) == []))
  {
    var r := ScanAll(chain, maxPlans);
    if chain.totalPlans.Answer? {
      var bound := ScanBound(chain.totalPlans.value, maxPlans);
      var t := ScanPlans(chain, 1, bound);
      ScanPlansFaults(chain, 1, bound);
      ScanPlansQueries(chain, 1, bound);
      FaultsAfterPrefix(chain, [TotalPlansQuery], t);
      assert r.issued[1..] == t.issued;
      PlanIdsAppend([TotalPlansQuery], t.issued);
      assert PlanIds([TotalPlansQuery]) == [] by {
        assert [TotalPlansQuery][1..] == [];
      }
    }
  }

  /** What the whole scan finds: it aborts exactly when a query it needs faults; otherwise it has
      found exactly the reference list up to the bound, so every eligible charge and nothing else,
      plan ids ascending and each plan's charges in its subscriber list's order. */
  lemma ScanAllFound(chain: ChainView, maxPlans: nat)
    ensures var r := ScanAll(chain, maxPlans);
            && (r.aborted <==> !ScanHealthy(chain, maxPlans))
            && (!r.aborted ==>
                  var bound := ScanBound(chain.totalPlans.value, maxPlans);
                  && r.found == DueList(chain, 1, bound)
                  && (forall c :: c in r.found <==> Eligible(chain, 1, bound, c))
                  && SortedByPlan(r.found)
                  && |r.found| <= RosterTotal(chain, 1, bound))
  {
    if chain.totalPlans.Answer? {
      ScanPlansFaults(chain, 1, ScanBound(chain.totalPlans.value, maxPlans));
      ScanPlansFound(chain, 1, ScanBound(chain.totalPlans.value, maxPlans));
      ScanPlansOrdered(chain, 1, ScanBound(chain.totalPlans.value, maxPlans));
      ScanPlansExact(chain, 1, ScanBound(chain.totalPlans.value, maxPlans));
    }
  }

  /** `findDueCharges`: the due, active, profitable-or-not charges of every retained plan up to the
      cap, or the error of the first query that failed (no partial list). */
  function FindDueCharges(chain: ChainView, maxPlans: nat): (r: Result<seq<Candidate>, Query>)
    ensures r.Success? <==> ScanHealthy(chain, maxPlans)
    ensures r.Failure? ==> !Answered(chain, r.error)
    ensures r.Success? ==>
              var bound := ScanBound(chain.totalPlans.value, maxPlans);
              && r.value == DueList(chain, 1, bound)
              && (forall c :: c in r.value <==> Eligible(chain, 1, bound, c))
              && SortedByPlan(r.value)
              && |r.value| <= RosterTotal(chain, 1, bound)
  {
    var t := ScanAll(chain, maxPlans);
    ScanAllQueries(chain, maxPlans);
    ScanAllFound(chain, maxPlans);
    if t.aborted then Failure(t.issued[|t.issued| - 1]) else Success(t.found)
  }

  /** One faulted due-ness check on a listed subscriber of a retained plan in range aborts the
      whole scan: the other plans' due charges are not returned either. */
  lemma DueCheckFaultAbortsScan(chain: ChainView, maxPlans: nat, s: Principal, id: int)
    requires chain.totalPlans.Answer?
    requires 1 <= id <= ScanBound(chain.totalPlans.value, maxPlans)
    requires PlanRetained(chain, id) && chain.subscribers(id).Answer? && s in Roster(chain, id)
    requires chain.chargeDue(s, id).Fault?
    ensures FindDueCharges(chain, maxPlans).Failure?
  {
    var i :| 0 <= i < |Roster(chain, id)| && Roster(chain, id)[i] == s;
    assert !SubscriberHealthy(chain, Roster(chain, id)[i], id);
    assert !PlanHealthy(chain, id);
  }

  // ---------------------------------------------------------------------------
  // Candidates charge the subscribed amount, not the live plan amount

  /** The chain after merchants reprice their plans: each present plan's live amount replaced. */
  function Repriced(chain: ChainView, newAmount: int -> int): ChainView {
    chain.(plan := (id: int) =>
      match chain.plan(id)
      case Answer(Some(f)) => Answer(Some(f.(amount := newAmount(id))))
      case other => other)
  }

  lemma {:induction false} RepricedRoster(chain: ChainView, newAmount: int -> int, id: int, subs: seq<Principal>)
    ensures ScanSubscribers(Repriced(chain, newAmount), id, subs) == ScanSubscribers(chain, id, subs)
    decreases |subs|
  {
    if subs != [] {
      RepricedRoster(chain, newAmount, id, subs[1..]);
    }
  }

  lemma {:induction false} RepricedPlans(chain: ChainView, newAmount: int -> int, lo: int, hi: int)
    ensures ScanPlans(Repriced(chain, newAmount), lo, hi) == ScanPlans(chain, lo, hi)
    decreases hi - lo + 1
  {
    if lo <= hi {
      var c2 := Repriced(chain, newAmount);
      if chain.plan(lo).Answer? && chain.subscribers(lo).Answer? {
        RepricedRoster(chain, newAmount, lo, DecodeSubscribers(chain.subscribers(lo).value));
      }
      assert ScanPlan(c2, lo) == ScanPlan(chain, lo);
      RepricedPlans(chain, newAmount, lo + 1, hi);
    }
  }

  /** Repricing plans changes nothing the scan reports or queries: candidates carry the amount
      recorded in the subscription, never the plan's live amount. */
  lemma RepricingKeepsCharges(chain: ChainView, newAmount: int -> int, maxPlans: nat)
    ensures ScanAll(Repriced(chain, newAmount), maxPlans) == ScanAll(chain, maxPlans)
    ensures FindDueCharges(Repriced(chain, newAmount), maxPlans) == FindDueCharges(chain, maxPlans)
  {
    if chain.totalPlans.Answer? {
      RepricedPlans(chain, newAmount, 1, ScanBound(chain.totalPlans.value, maxPlans));
    }
  }
}
